=== FILE: README.md ===
# A verified model of the platformer and its relay server

This project models the core of a browser side-scroller with optional
multiplayer, in Dafny. It has three parts.

- **Game engine (src/main.ts).** Random level generation and the per-frame
  `update`: input, gravity, platforms, boxes, moving platforms, collectibles,
  spikes, the level end, and the off-screen guard.
- **Relay server (server.js).** The `GameSession` that holds joined players,
  the host role and the collected items, and the per-connection dispatch of
  `join`, `playerUpdate`, `collectItem`, `ping`, `close` and `error`.
- **Client connection manager (src/multiplayer.ts).** Finding the server,
  probing its health address, joining, sending, handling server messages,
  and the linear reconnection backoff.

The modules follow the program:

| file | module | what it holds |
|---|---|---|
| `wrappers.dfy` | `Wrappers` | `Option` |
| `strings.dfy` | `Strings` | the JavaScript string operations the client uses |
| `geometry.dfy` | `Geometry` | `Rect` and `rectsCollide` |
| `layout.dfy` | `Level` | `generateLevel` as a pure function of the run's `Math.random()` results, and the shape of every generated level |
| `physics.dfy` | `Physics` | one frame of `update` as pure functions, phase by phase |
| `world.dfy` | `Game` | the script's mutable state as a class `World`, with loops proved against `Level` and `Physics` |
| `session.dfy` | `Session` | the roster as a value (`Join`, `Leave`, `Touch`, `Sweep`), and `GameSession` as a class whose methods are proved against those functions |
| `relay.dfy` | `Relay` | the connection handler |
| `client.dfy` | `Client` | `MultiplayerManager` |

Numbers are exact reals and integers; JavaScript's doubles are not
modelled.

Things the environment decides are inputs:

- `Math.random()` is an oracle `rng: nat -> Draw`, with a counter of the
  draws used so far.
- `Date.now()` is a `now` parameter.
- The keyboard is a `Keys` value.
- A socket's readyState is a flag in `Socket`.
- Whether `ws.send` throws and what the health probe returns are
  parameters.

Each pass of `generateLevel`'s loop draws six numbers. In
`Math.random() < 0.3 && x > 0`, the draw comes first, so it is consumed even
when `x > 0` is false.

Two properties of the code, each proved by a lemma:

- **The right-edge guard of `update` never changes the player**
  (`Physics.RightGuardNeverFires`). The level-end test runs first. A player
  whose right edge reaches `levelEndX = 2300` is sent back to x = 100. Any
  other player's right edge is below 2300, which is below the level width
  2400, so only the left-edge guard can act.
- **The code does not keep the invariant "exactly one player is host
  whenever anybody is joined"** (`Session.RejoinLeavesNoMarkedHost`). A
  `join` under an id already present, sent while others are present, rewrites
  that record with `isHost: false`, yet `hostId` keeps naming it. The model
  proves the invariant the code does keep: at most one player is marked, and
  `hostId` names a present player whenever the session is non-empty.

The game has no slopes, hearts, lives, double jumps, growing, names,
server-side scores or finish marker.

## Model

| member | source | states |
|---|---|---|
| Geometry.CollideIsSymmetric | src/main.ts:97-104 | rectsCollide(a, b) equals rectsCollide(b, a) |
| Geometry.CollideIffCommonInteriorPoint | src/main.ts:97-104 | for rectangles of positive size, colliding is equivalent to sharing a point strictly inside both |
| Geometry.TouchingEdgesDoNotCollide | src/main.ts:97-104 | rectangles that only share an edge do not collide (the comparisons are strict) |
| Level.MoverPushSwept | src/main.ts:84-86 | a generated moving platform starts on its track |
| Level.Step | src/main.ts:73-92 | one pass pushes exactly one platform, at the cursor x; the next x is past that platform by a gap in [60, 140) |
| Level.PassMovesOn | src/main.ts:72-93 | each pass keeps the accumulated level a prefix of the whole, adds one platform, strictly lowers the number of platforms still to come, and keeps moving platforms on their tracks |
| Level.GeneratePlatforms | src/main.ts:70-94 | platforms are ground platforms 80 or 160 wide; the first is at the start x; each starts at or after the start and before the level width; consecutive ones have gaps in [60, 140); there is at least one exactly when the start is inside the level; this is the contract of `Level.Generate` |
| Level.GappedAscends | src/main.ts:73-89 | every platform ends at least 60 before any later one starts, so platforms never overlap and their x strictly increases |
| Level.GenerateCount | src/main.ts:72-89 | the number n of passes satisfies (n - 1) * 140 < span < n * 300 |
| Level.GenerateSpikes | src/main.ts:80-82 | every spike lies 40 before some platform that does not start at 0 |
| Level.GenerateMovers | src/main.ts:84-86 | every moving platform starts 60 before some platform that does not start at 0, at its own startX |
| Level.GenerateCrates | src/main.ts:90-92 | every box stands 10 in from the left end of a platform other than the first, one that starts below 2350 |
| Level.GenerateCoins | src/main.ts:76-78 | every coin hovers, uncollected, over the middle of some platform |
| Level.LevelSize | src/main.ts:70-94 | a level generated from x = 0 has between 9 and 18 platforms, the first at 0 |
| Level.SpikeMisses | src/main.ts:80-81 | a spike in the gap before platform i overlaps no platform |
| Level.SpikesMissPlatforms | src/main.ts:70-94 | in every generated level, no spike overlaps any platform |
| Level.ItemsSitOnPlatforms | src/main.ts:76-92 | in every generated level, every box rests on a platform's top within its span, every coin hovers above one, and every moving platform starts on its track |
| Physics.Steer | src/main.ts:131-146 | steps 1 to 4 never change the player's size |
| Physics.SteerHorizontal | src/main.ts:131-133 | vx is 0 with no arrow, -4 for left alone, +4 whenever right is held (right wins); x moves by vx |
| Physics.SteerVertical | src/main.ts:135-146 | a jump happens only from the ground (vy = -12 + 0.5, onGround cleared); otherwise gravity adds 0.5; y moves by vy |
| Physics.LandAll | src/main.ts:148-162 | the platform loop changes only y, vy and onGround |
| Physics.LandAllGrounds | src/main.ts:149-162 | starting airborne, the player ends on the ground if and only if it lands on some platform during the loop |
| Physics.GroundedAfterLanding | src/main.ts:149-162 | a landing at any turn leaves onGround set to the end of the loop |
| Physics.LandingBeforeGrounded | src/main.ts:149-162 | starting airborne, a grounded result implies a landing at some turn |
| Physics.LandAllRests | src/main.ts:149-162 | a grounded player after the loop has vy = 0 and its bottom on the top of some platform; this is the contract of `Physics.Land` |
| Physics.PushOutSeparates | src/main.ts:164-185 | a box not overlapped changes nothing; an overlapped box resolved from above leaves the player standing on it (bottom on its top, vy = 0, on the ground), from the left with its right edge on the box's left, from the right with its left edge on the box's right, from below with its top on the box's bottom and vy = 0; in those four cases they no longer overlap; a player already inside is not moved; the size is kept; this is the contract of `Physics.PushOut` |
| Physics.PushOutAll | src/main.ts:164-185 | the box loop never changes the player's size |
| Physics.PushOutAllClearsLastBox | src/main.ts:164-185 | after the loop the player does not overlap the last box, unless it was stuck inside it |
| Physics.SweptAtStart | src/main.ts:85 | a platform at its startX with a non-negative range is on its track |
| Physics.OscillateKeepsSwept | src/main.ts:188-193 | one frame keeps a moving platform on its track, keeps its speed, startX, range and y; this is the contract of `Physics.Oscillate` |
| Physics.OscillateAll | src/main.ts:188-193 | every moving platform, and only it, advances by one frame |
| Physics.OscillateAllOnTracks | src/main.ts:188-193 | the moving-platform loop keeps every platform on its track |
| Physics.RideAll | src/main.ts:196-210 | riding never changes the player's size |
| Physics.RideCarries | src/main.ts:196-210 | a landing on a moving platform snaps the player onto it, grounds it and shifts it by exactly dx; a miss changes nothing; this is the contract of `Physics.Ride` |
| Physics.CollectAll | src/main.ts:213-218 | each item is collected exactly when it was already collected or is uncollected and overlapped |
| Physics.Flips | src/main.ts:213-218 | the score grows by at most the number of items |
| Physics.CollectAllCounts | src/main.ts:213-218 | the score grows by exactly the number of items newly collected, and collected items stay collected; this is the contract of `Physics.Pick` |
| Physics.Respawn | src/main.ts:110-115 | the player is back at (100, 350) at rest, with its size and onGround kept |
| Physics.ClampKeepsInLevel | src/main.ts:238-240 | a player no wider than the level ends inside it, and one already inside is not moved; this is the contract of `Physics.Clamp` |
| Physics.RightGuardNeverFires | src/main.ts:230-240 | a player whose right edge is left of levelEndX, or one just respawned, is never moved by the right-edge guard; only the left-edge guard can act |
| Physics.Advance | src/main.ts:129-229 | one frame keeps the player's size and the number of moving platforms and items |
| Physics.FrameSanity | src/main.ts:131-146 | at rest in the air the player falls; right moves right; left moves left; a grounded jump goes up |
| Physics.LandsOnFloor | src/main.ts:148-162 | falling at 5 from ten above the ground onto an 800-wide floor grounds the player with its bottom on the floor |
| Game.AdvanceKeepsLevel | src/main.ts:188-218 | a frame keeps moving platforms on their tracks at the same speed, keeps collected items collected, and adds to the score exactly the newly collected ones |
| Game.World.constructor | src/main.ts:18-31 | the player at its start, score 0, level 1, and the first level is the generator's level for the first draws |
| Game.World.GenerateLevel | src/main.ts:70-94 | the five arrays gain exactly the generated level, and six draws are used per platform |
| Game.World.NextPass | src/main.ts:72-93 | one turn of the loop keeps the accumulated level a prefix of the whole and strictly lowers the platforms still to come |
| Game.World.GeneratePass | src/main.ts:73-92 | the loop body pushes exactly one pass and uses the next six draws |
| Game.World.ResetPlayer | src/main.ts:110-115 | the player is respawned |
| Game.World.Regenerate | src/main.ts:118-123 | after emptying, the arrays hold exactly a freshly generated level |
| Game.World.GenerateNewLevel | src/main.ts:117-127 | a fresh level, the player respawned, score 0, level one higher |
| Game.World.ApplyInput | src/main.ts:131-146 | steps 1 to 4 are Steer |
| Game.World.LandOnPlatforms | src/main.ts:148-162 | the platform loop is LandAll after clearing onGround |
| Game.World.PushOutOfBoxes | src/main.ts:164-185 | the box loop is PushOutAll |
| Game.World.MoveMovingPlatforms | src/main.ts:187-193 | the loop advances every moving platform by one frame |
| Game.World.RideMovingPlatforms | src/main.ts:195-210 | the riding loop is RideAll |
| Game.World.PickUpCollectibles | src/main.ts:212-218 | the loop collects as CollectAll does and adds Flips to the score |
| Game.World.CheckSpikes | src/main.ts:219-229 | the player is respawned exactly when it touches some spike |
| Game.World.MovePlayer | src/main.ts:130-185 | steps 1 to 6 in order |
| Game.World.MoveWorld | src/main.ts:187-210 | step 7 in order |
| Game.World.Settle | src/main.ts:212-229 | steps 8 and 9 in order |
| Game.World.Phases | src/main.ts:130-229 | steps 1 to 9, with the player after steps 6 and 7 |
| Game.World.RunPhases | src/main.ts:130-229 | steps 1 to 9 are one frame of Advance; moving platforms stay on their tracks; the score does not drop |
| Game.World.EndFrame | src/main.ts:230-240 | past levelEndX a fresh level with the player respawned and the score reset; otherwise nothing but the clamp; the player ends inside the level |
| Game.World.Update | src/main.ts:129-241 | one frame is Advance, then either a fresh level (respawned player, score 0, next level) or the clamped frame with the score grown by the items collected; the player ends inside the level |
| Session.Without | server.js:63 | deleting from the join order removes exactly that id, keeps the others distinct and never lengthens it |
| Session.WithoutAbsent | server.js:63 | deleting an id that is not in the join order leaves the order unchanged |
| Session.WithoutSplices | server.js:63 | deleting a present id cuts out just its slot: the remaining ids keep their join order, as Map.delete keeps insertion order |
| Session.WithoutHead | server.js:68 | the first remaining id is the first in join order other than the one removed |
| Session.Join | server.js:27-43 | a join keeps the roster well formed |
| Session.JoinElectsFirstJoiner | server.js:28-31 | the joiner becomes host exactly when the session was empty; otherwise hostId is kept and the joiner is not marked |
| Session.JoinStoresSpawnRecord | server.js:33-43 | the joiner's record is at (100, 350), 40 by 50, growLevel 0, with its socket and time; other records are untouched |
| Session.JoinKeepsJoinOrder | server.js:33 | a new id goes last; an existing id keeps its place |
| Session.JoinKeepsHostConsistent | server.js:27-43 | a join keeps "at most one marked host, and hostId present when non-empty" |
| Session.JoinAnnouncesThenSnapshots | server.js:47-56 | playerJoined reaches exactly the open sockets of the players after the join, the joiner included; it is written to a connection once per such player on it; and the last write is the joiner's snapshot |
| Session.Leave | server.js:59-72 | a leave keeps the roster well formed |
| Session.LeaveUnknownIsNoOp | server.js:60-61 | an unknown id changes and sends nothing |
| Session.LeaveRemovesOnlyThePlayer | server.js:63 | only the leaver's record goes; the others keep everything but perhaps the host flag |
| Session.LeaveTwiceIsLeaveOnce | server.js:223-234 | a second removal, as after both error and close, changes and sends nothing |
| Session.LeaveHandsHostToNextJoiner | server.js:66-72 | when the host leaves others, the first remaining player in join order becomes host and is marked |
| Session.LeaveOfLastPlayerKeepsHostId | server.js:67 | when the last player leaves, hostId keeps the departed id |
| Session.LeaveKeepsHostConsistent | server.js:59-72 | a leave keeps "at most one marked host, and hostId present when non-empty" |
| Session.TouchOverwritesOnlyMirroredFields | server.js:82-91 | an update of an unknown id changes nothing; otherwise only that player's position and lastSeen change; this is the contract of `Session.Touch` |
| Session.FanoutReaches | server.js:144-150 | a broadcast reaches a connection exactly when some listed, non-excluded player has an open socket on it; this is the contract of `Session.Fanout` |
| Session.ListenersOn | server.js:144-150 | the players a broadcast writes to on one connection are listed, not excluded and have an open socket there |
| Session.FanoutCounts | server.js:144-150 | a broadcast writes its message to a connection exactly once per listed, non-excluded player with an open socket on it |
| Session.FanoutCarries | server.js:144-150 | every delivery of a broadcast carries the broadcast message |
| Session.LeaveNotifiesOnlyRemaining | server.js:74-79 | playerLeft reaches exactly the open sockets of the players who remain |
| Session.ViewsMirrorPlayers | server.js:124-133 | the snapshot lists every player in join order with its position and host flag; this is the contract of `Session.Views` |
| Session.TwoPlayersJoin | server.js:27-43 | after two joins, the order is [a, b], only a is host, and each record holds its socket |
| Session.TwoPlayersSeeJoins | server.js:47-56 | each joiner sees its own playerJoined, and the first sees the second's |
| Session.RejoinLeavesNoMarkedHost | server.js:27-43 | when the host joins again while another player is present, hostId still names it but no player is marked host |
| Session.UpdateIsNotEchoed | server.js:94-99 | a position update reaches the other player only |
| Session.Sweep | server.js:163-173 | the sweep keeps the roster well formed |
| Session.SweepEvictsExactlyIdle | server.js:163-173 | the visited idle players, and only they, are removed; the others keep their records up to the host flag |
| Session.SweepKeepsHostConsistent | server.js:163-173 | the sweep keeps the host invariant |
| Session.ItemListInOrder | server.js:134 | the snapshot lists every collectible, in insertion order |
| Session.GameSession.constructor | server.js:20-25 | no players, no collectibles, no host |
| Session.GameSession.Send | server.js:152-160 | a message is written exactly when the socket is open |
| Session.GameSession.Broadcast | server.js:144-150 | the writes are the fan-out in join order |
| Session.GameSession.SendGameState | server.js:120-142 | only a present player gets the snapshot, on an open socket |
| Session.GameSession.Register | server.js:27-43 | the roster becomes Join of the old one; isHost is whether the session was empty |
| Session.GameSession.AddPlayer | server.js:27-57 | the roster becomes Join of the old one, and the writes are the announcement then the snapshot |
| Session.GameSession.Unregister | server.js:59-72 | the roster becomes Leave of the old one, keeping the invariants |
| Session.GameSession.Departure | server.js:63-72 | the computed roster is Leave of the current one |
| Session.GameSession.RemovePlayer | server.js:59-80 | the roster becomes Leave of the old one, and the writes are its playerLeft broadcast |
| Session.GameSession.UpdatePlayerPosition | server.js:82-100 | the roster becomes Touch of the old one; a known player's update goes to everyone else |
| Session.GameSession.CollectItem | server.js:102-118 | the item is recorded collected by the reporter, whoever it is, and everyone is told |
| Session.GameSession.Visit | server.js:167-172 | an idle present player is removed with its broadcast; otherwise nothing happens |
| Session.GameSession.CleanupInactivePlayers | server.js:163-173 | the roster and writes are those of Sweep over the join order; exactly the idle players are gone |
| Relay.RouteOf | server.js:192-217 | join always routes; update and collect route only with a truthy id and the needed field; ping is answered; anything else is dropped |
| Relay.Connection.constructor | server.js:185-186 | a fresh connection has no player id |
| Relay.Connection.OnMessage | server.js:188-221 | each route does exactly its session operation; dropped messages change nothing |
| Relay.Connection.OnClose | server.js:223-227 | a connection with a truthy id removes its player; otherwise nothing |
| Relay.Connection.OnError | server.js:229-234 | as OnClose |
| Strings.Find | src/multiplayer.ts:61 | the result is the first occurrence, or None when there is none |
| Strings.Contains | src/multiplayer.ts:61 | includes is true exactly when the pattern occurs somewhere |
| Strings.ReplaceFirst | src/multiplayer.ts:41 | only the first occurrence is replaced; no occurrence leaves the string unchanged |
| Strings.BeforeFirst | src/multiplayer.ts:67 | split(c)[0] is a prefix without c, ending at the first c or at the end |
| Client.SchemeOf | src/multiplayer.ts:57 | wss: exactly for an https: page, ws: otherwise |
| Client.SchemeLeads | src/multiplayer.ts:57 | an address built from the scheme starts with wss: exactly when the page came over https: |
| Client.DefaultUrlEndsWithRelayPort | src/multiplayer.ts:55-73 | every default address ends in :3001 |
| Client.DefaultUrlFollowsPage | src/multiplayer.ts:57-72 | outside development the address is scheme, //, host part and :3001, the host part being, for the container, the text before the host's first colon (a colon the port guarantees), and the whole host otherwise; it starts with wss: exactly for https:; this is the contract of `Client.DefaultServerUrl` |
| Client.Port8080IsPort80 | src/multiplayer.ts:66 | the ":8080" test is subsumed by the ":80" test |
| Client.DevPageUsesLocalServer | src/multiplayer.ts:61-63 | a page on either development host, localhost:5173 or 127.0.0.1:5173, gets ws://localhost:3001 |
| Client.HealthUrl | src/multiplayer.ts:41-42 | the probe address ends in /health |
| Client.HealthOfWs | src/multiplayer.ts:41-42 | for ws://rest the probe is http://rest/health |
| Client.HealthOfWss | src/multiplayer.ts:41-42 | for wss://rest the probe is https://rest/health |
| Client.ServerAvailable | src/multiplayer.ts:38-53 | the server counts as available exactly when the probe answered ok |
| Client.PlayerIdShape | src/multiplayer.ts:33-35 | the id is "player_" followed by the rendering's characters from index 2, at most nine of them (rendering[2..11] for a rendering of 11 or more characters); this is the contract of `Client.GeneratePlayerId` |
| Client.TypicalPlayerId | src/multiplayer.ts:34 | the rendering "0.4fzyo82mvyr" gives the id "player_4fzyo82mv" |
| Client.Retries | src/multiplayer.ts:143-154 | consecutive closes schedule at most 3 retries in all, the i-th after 1000 * i ms |
| Client.RetriesCompose | src/multiplayer.ts:143-154 | m closes then n more schedule the first m closes' retries followed by those of n closes starting from the attempts already made |
| Client.OutageSchedule | src/multiplayer.ts:143-154 | an outage schedules retries after exactly 1000, 2000 and 3000 ms, and nothing more |
| Client.MultiplayerManager.constructor | src/multiplayer.ts:18-31 | a generated player id, no socket, not connected, not host, nothing sent |
| Client.MultiplayerManager.Register | src/multiplayer.ts:218-228 | registering a callback turns it on |
| Client.MultiplayerManager.Resolve | src/multiplayer.ts:87-136 | only the first resolution settles the promise |
| Client.MultiplayerManager.Initialize | src/multiplayer.ts:76-98 | the health address is probed; an unavailable server or a rejected address settles the promise to false and leaves the socket as it was; otherwise a socket opens on the address and the timeout is armed |
| Client.MultiplayerManager.Send | src/multiplayer.ts:182-191 | a message is sent only with a socket while connected; a throw marks the manager disconnected |
| Client.MultiplayerManager.OnOpen | src/multiplayer.ts:99-113 | connected with the retry count reset, the join with its own id sent, the timeout cleared, the promise settled to true |
| Client.MultiplayerManager.OnError | src/multiplayer.ts:130-135 | disconnected, the timeout cleared, the promise settled to false |
| Client.MultiplayerManager.AttemptReconnect | src/multiplayer.ts:143-154 | below 3 attempts, one more attempt and a retry after 1000 times the count; the added retries are exactly those of Retries |
| Client.MultiplayerManager.OnClose | src/multiplayer.ts:124-128 | disconnected, then a reconnection attempt |
| Client.MultiplayerManager.Disconnect | src/multiplayer.ts:244-250 | the socket, if any, is closed and dropped, and the manager is disconnected; with no socket nothing is closed |
| Client.MultiplayerManager.OnTimeout | src/multiplayer.ts:93-97 | the socket is closed and dropped and the promise settles to false |
| Client.MultiplayerManager.HandleMessage | src/multiplayer.ts:115-180 | only a playerJoined naming this player changes isHost (to its flag, false when absent); state, join and leave messages reach their callbacks only when registered |
| Client.MultiplayerManager.UpdatePlayerPosition | src/multiplayer.ts:194-203 | while connected, this player's position is sent |
| Client.MultiplayerManager.CollectItem | src/multiplayer.ts:206-215 | while connected, this player's pickup is sent |
| Client.MultiplayerManager.Ping | src/multiplayer.ts:253-257 | while connected, a ping is sent |

## Left out

- Session.JoinKeepsHostConsistent, Session.LeaveKeepsHostConsistent, Session.SweepKeepsHostConsistent: these prove "at most one marked host, and hostId present when non-empty", not "exactly one", because the code breaks "exactly one" when a present id joins again while others are present (Session.RejoinLeavesNoMarkedHost).
- The camera (src/main.ts:235-236), drawing, the game loop, keyboard and touch listeners and mobile controls (src/main.ts:41-62 and after line 242): rendering and browser input.
- The `platform` constant (src/main.ts:33-39): nothing reads it.
- JavaScript doubles: the model computes with exact reals, so rounding is not modelled.
- The health endpoint, the HTTP server, start-up and the 30-second cleanup timer (server.js:1-16, 176-182, 237-243): I/O and timers. The cleanup itself is modelled.
- Timestamps: outgoing messages drop theirs. `lastSeen`, the inactivity test and collection entries take `now` as a parameter.
- JSON encoding and decoding: messages are datatypes. A frame that does not parse is `Unparsable` on the server and `Garbled` on the client.
- Socket state: a socket's readyState is fixed when its player joins; later changes are not modelled.
- `player.ws` truthiness (server.js:122, 146): every record has a socket.
- Server send errors: a `ws.send` that throws inside `send` (server.js:154-158) is not modelled.
- Truthiness of non-string values: the server's `playerId` and `collectibleId`, and the client's `data.isHost`, are strings or optional booleans. Truthiness is tested on those types only.
- `lastUpdate` (server.js:24): set once and never read.
- Client getters (src/multiplayer.ts:231-241): they are the fields themselves.
- Client callbacks: their arguments are recorded in `notices`; what the game does with them is not modelled.
- Retry timers are recorded, not run: a retry firing is a later `Initialize` call.
- Stale sockets: events of a socket other than the current one are not modelled, except `onclose`, which names its own address. `OnOpen` assumes the current socket.
- Client.MultiplayerManager.Send: a browser that silently drops a message on a closing socket is treated as sending it; only a throwing send is modelled as a failure.
- Logging (`console.log`, `console.error`): output only.

=== FILE: client.dfy ===
/**
 * The browser's connection manager (src/multiplayer.ts, class
 * MultiplayerManager): where it looks for the relay server, how it joins,
 * what it sends, how it reacts to the server's messages and how it retries
 * after the socket closes.
 *
 * The browser is outside the model. The page's protocol and host, the
 * base-36 rendering of Math.random(), the health probe's outcome and whether
 * `ws.send` throws are parameters. The socket's events (open, close, error,
 * the 5-second timeout) are methods the browser calls. Timers the manager
 * arms are recorded, not run.
 */
module Client {
  import opened Wrappers
  import opened Strings
  import Session

  // ---------------------------------------------------------------- where the server is

  const RELAY_PORT := ":3001"
  const DEV_URL := "ws://localhost:3001"

  /** A page served by the development server on port 5173. */
  predicate DevHost(host: string)
  {
    Contains(host, "localhost:5173") || Contains(host, "127.0.0.1:5173")
  }

  /** A page served from the container's port 8080 or 80 (by substring, so ":8000" counts too). */
  predicate DockerHost(host: string)
  {
    Contains(host, ":8080") || Contains(host, ":80")
  }

  /** The WebSocket scheme matching the page's protocol. */
  function SchemeOf(protocol: string): (s: string)
    ensures s == "wss:" <==> protocol == "https:"
    ensures s == "wss:" || s == "ws:"
  {
    if protocol == "https:" then "wss:" else "ws:"
  }

  /**
   * getDefaultServerUrl: the development server's fixed address; for the
   * container, the page's hostname without its port; otherwise the page's
   * whole host. In the last two the relay's port 3001 is appended.
   */
  function DefaultServerUrl(protocol: string, host: string): (url: string)
  {
    if DevHost(host) then DEV_URL
    else if DockerHost(host) then SchemeOf(protocol) + "//" + BeforeFirst(host, ':') + RELAY_PORT
    else SchemeOf(protocol) + "//" + host + RELAY_PORT
  }

  /** Every default address names the relay's port 3001 last. */
  lemma DefaultUrlEndsWithRelayPort(protocol: string, host: string)
    ensures var url := DefaultServerUrl(protocol, host);
      |url| >= |RELAY_PORT| && url[|url| - |RELAY_PORT|..] == RELAY_PORT
  {
    var url := DefaultServerUrl(protocol, host);
    if DevHost(host) {
      assert url[|url| - 5..] == ":3001";
    }
  }

  /** Outside development, the scheme is wss: exactly when the page came over https:, and the address is scheme, "//", host part, port. */
  lemma DefaultUrlFollowsPage(protocol: string, host: string)
    requires !DevHost(host)
    ensures var url := DefaultServerUrl(protocol, host);
      exists hostPart: string ::
        && url == SchemeOf(protocol) + "//" + hostPart + RELAY_PORT
        && (DockerHost(host) ==> ':' !in hostPart && hostPart + ":" <= host)
        && (!DockerHost(host) ==> hostPart == host)
    ensures var url := DefaultServerUrl(protocol, host);
      |url| >= 4 && (url[..4] == "wss:" <==> protocol == "https:")
  {
    var url := DefaultServerUrl(protocol, host);
    var hostPart := if DockerHost(host) then BeforeFirst(host, ':') else host;
    assert url == SchemeOf(protocol) + "//" + hostPart + RELAY_PORT;
    if DockerHost(host) {
      // The port's colon is in the host, so split(':')[0] stops before it.
      if Contains(host, ":8080") {
        Port8080IsPort80(host);
      }
      var j: nat :| OccursAt(host, ":80", j);
      assert host[j] == host[j..j + 3][0] == ':';
      assert hostPart != host;
      assert hostPart + ":" == host[..|hostPart| + 1];
    }
    SchemeLeads(protocol, hostPart);
  }

  /** An address built from the scheme starts with "wss:" exactly when the page came over https:. */
  lemma SchemeLeads(protocol: string, hostPart: string)
    ensures var url := SchemeOf(protocol) + "//" + hostPart + RELAY_PORT;
      |url| >= 4 && (url[..4] == "wss:" <==> protocol == "https:")
  {
    var url := SchemeOf(protocol) + "//" + hostPart + RELAY_PORT;
    if protocol == "https:" {
      assert url[..4] == SchemeOf(protocol);
    } else {
      assert url[2] == ':';
    }
  }

  /** The ":8080" test adds nothing: every host containing ":8080" contains ":80". */
  lemma {:induction false} Port8080IsPort80(host: string)
    requires Contains(host, ":8080")
    ensures Contains(host, ":80")
  {
    var j: nat :| OccursAt(host, ":8080", j);
    assert host[j..j + 3] == host[j..j + 5][..3];
    assert OccursAt(host, ":80", j);
  }

  /** A page on the development server, under either of its two hosts, always gets the fixed local address. */
  lemma DevPageUsesLocalServer(protocol: string, host: string)
    requires DevHost(host)
    ensures DefaultServerUrl(protocol, host) == "ws://localhost:3001"
  {
  }

  // ---------------------------------------------------------------- the health probe

  /**
   * checkServerAvailable's probe address: the first "ws://" becomes
   * "http://", then the first "wss://" becomes "https://", then "/health" is
   * appended (both arms of the "/mp" test append the same).
   */
  function HealthUrl(serverUrl: string): (url: string)
    ensures |url| >= 7 && url[|url| - 7..] == "/health"
  {
    var httpUrl := ReplaceFirst(ReplaceFirst(serverUrl, "ws://", "http://"), "wss://", "https://");
    var url := httpUrl + "/health";
    assert url[|url| - 7..] == "/health";
    url
  }

  /** A pattern whose first character `a` lacks occurs in `a + b` only where it occurs in `b`. */
  lemma {:induction false} AbsentAcross(a: string, b: string, t: string)
    requires |t| > 0 && t[0] !in a && !Contains(b, t)
    ensures !Contains(a + b, t)
  {
    forall j: nat ensures !OccursAt(a + b, t, j) {
      if j < |a| {
        if j + |t| <= |a + b| {
          assert (a + b)[j..j + |t|][0] == (a + b)[j];
        }
      } else {
        OccursInSuffix(a, b, t, j - |a|);
      }
    }
  }

  /** For a ws:// address the probe is plain http on the same host and path. */
  lemma HealthOfWs(rest: string)
    requires !Contains(rest, "wss://")
    ensures HealthUrl("ws://" + rest) == "http://" + rest + "/health"
  {
    var s := "ws://" + rest;
    assert s[..5] == "ws://";
    assert Find(s, "ws://") == Some(0);
    var httpUrl := ReplaceFirst(s, "ws://", "http://");
    assert httpUrl == "http://" + rest by {
      assert s[5..] == rest;
    }
    AbsentAcross("http://", rest, "wss://");
    assert ReplaceFirst(httpUrl, "wss://", "https://") == httpUrl;
  }

  /** For a wss:// address the probe is https on the same host and path. */
  lemma HealthOfWss(rest: string)
    requires !Contains(rest, "ws://")
    ensures HealthUrl("wss://" + rest) == "https://" + rest + "/health"
  {
    var s := "wss://" + rest;
    assert !Contains(s, "ws://") by {
      forall j: nat ensures !OccursAt(s, "ws://", j) {
        if j + 5 > |s| {
        } else if j == 0 {
          assert s[j..j + 5][2] == 's';
        } else if j < 6 {
          assert s[j..j + 5][0] == s[j];
        } else {
          OccursInSuffix("wss://", rest, "ws://", j - 6);
        }
      }
    }
    assert ReplaceFirst(s, "ws://", "http://") == s;
    assert s[..6] == "wss://";
    assert Find(s, "wss://") == Some(0);
    assert s[6..] == rest;
  }

  /** checkServerAvailable: the probe's outcome, `None` when fetch throws or the 2-second timeout aborts it, else `response.ok`. */
  function ServerAvailable(response: Option<bool>): (available: bool)
    ensures available <==> response == Some(true)
  {
    match response
    case None => false
    case Some(ok) => ok
  }

  // ---------------------------------------------------------------- the player id

  const ID_PREFIX := "player_"

  /** `s.substr(start, length)`, clipped to the string. */
  function Substr(s: string, start: nat, length: nat): (r: string)
    ensures |r| <= length
    ensures start <= |s| ==> r <= s[start..]
    ensures start >= |s| ==> r == []
  {
    var from := if start <= |s| then start else |s|;
    var to := if from + length <= |s| then from + length else |s|;
    s[from..to]
  }

  /** generatePlayerId, given Math.random().toString(36) (for instance "0.4fzyo82mvyr"): the prefix and at most 9 digits after the "0.". */
  function GeneratePlayerId(rendering: string): (id: string)
  {
    ID_PREFIX + Substr(rendering, 2, 9)
  }

  /** An id is "player_" followed by up to nine characters of the rendering after its first two; a short rendering is taken whole. */
  lemma PlayerIdShape(rendering: string)
    ensures var id := GeneratePlayerId(rendering);
      && |id| <= 16 && id[..7] == "player_"
      && (2 <= |rendering| <= 11 ==> id == "player_" + rendering[2..])
      && (|rendering| >= 11 ==> id == "player_" + rendering[2..11])
  {
    var id := GeneratePlayerId(rendering);
    assert id[..7] == ID_PREFIX;
  }

  /** A typical rendering of Math.random() in base 36 gives nine digits after "0.". */
  lemma TypicalPlayerId()
    ensures GeneratePlayerId("0.4fzyo82mvyr") == "player_4fzyo82mv"
  {
  }

  // ---------------------------------------------------------------- reconnection

  const MAX_RECONNECT_ATTEMPTS := 3
  const RECONNECT_DELAY := 1000

  /**
   * The delays, in milliseconds, of the retries that `closes` onclose events
   * in a row schedule when `attempts` retries were already made (no onopen
   * in between, which would reset the count).
   */
  function Retries(attempts: nat, closes: nat): (delays: seq<nat>)
    ensures |delays| <= closes
    ensures attempts <= MAX_RECONNECT_ATTEMPTS ==> |delays| <= MAX_RECONNECT_ATTEMPTS - attempts
    ensures forall i :: 0 <= i < |delays| ==> delays[i] == RECONNECT_DELAY * (attempts + i + 1)
    decreases closes
  {
    if closes == 0 || attempts >= MAX_RECONNECT_ATTEMPTS then []
    else [RECONNECT_DELAY * (attempts + 1)] + Retries(attempts + 1, closes - 1)
  }

  /**
   * Closes compose: m closes followed by n more schedule the retries of the
   * first m, then those of the next n counted from where the first m left off.
   */
  lemma {:induction false} RetriesCompose(attempts: nat, m: nat, n: nat)
    ensures Retries(attempts, m + n) == Retries(attempts, m) + Retries(attempts + |Retries(attempts, m)|, n)
    decreases m
  {
    if attempts >= MAX_RECONNECT_ATTEMPTS {
      assert Retries(attempts, m) == [];
    } else if m == 0 {
      assert Retries(attempts, m) == [];
      assert m + n == n;
    } else {
      RetriesCompose(attempts + 1, m - 1, n);
      RetriesPrepend(attempts, m, n);
    }
  }

  /** The first close's retry leads both sides of RetriesCompose alike. */
  lemma RetriesPrepend(attempts: nat, m: nat, n: nat)
    requires attempts < MAX_RECONNECT_ATTEMPTS && m > 0
    requires var rest := Retries(attempts + 1, m - 1);
      Retries(attempts + 1, (m - 1) + n) == rest + Retries(attempts + 1 + |rest|, n)
    ensures Retries(attempts, m + n) == Retries(attempts, m) + Retries(attempts + |Retries(attempts, m)|, n)
  {
    var d := RECONNECT_DELAY * (attempts + 1);
    var rest := Retries(attempts + 1, m - 1);
    var later := Retries(attempts + 1 + |rest|, n);
    var head := Retries(attempts, m);
    assert head == [d] + rest;
    assert attempts + |head| == attempts + 1 + |rest|;
    assert Retries(attempts, m + n) == [d] + Retries(attempts + 1, (m - 1) + n);
    Session.AppendAssoc([d], rest, later);
  }

  /** However long an outage lasts, it schedules the three retries 1, 2 and 3 seconds apart, and nothing more. */
  lemma {:induction false} OutageSchedule(closes: nat)
    requires closes >= MAX_RECONNECT_ATTEMPTS
    ensures Retries(0, closes) == [1000, 2000, 3000]
  {
    var ds := Retries(0, closes);
    assert Retries(3, closes - 3) == [];
    assert Retries(2, closes - 2) == [3000];
    assert Retries(1, closes - 1) == [2000, 3000];
  }

  // ---------------------------------------------------------------- messages

  /** What the client sends (timestamps aside). */
  datatype Outgoing =
    | Join(playerId: string)
    | PlayerUpdate(playerId: string, position: Session.Position)
    | CollectItem(playerId: string, collectibleId: string)
    | Ping

  /** What the client receives; `Garbled` is a frame JSON.parse rejects. `isHost` is `None` when the field is absent. */
  datatype Incoming =
    | GameState(players: seq<Session.PlayerView>, collectibles: seq<Session.Entry>)
    | PlayerJoined(playerId: string, isHost: Option<bool>)
    | PlayerLeft(playerId: string)
    | Pong
    | Other(kind: string)
    | Garbled

  /** A callback the game registered being called. */
  datatype Notice =
    | StateUpdated(players: seq<Session.PlayerView>, collectibles: seq<Session.Entry>)
    | Joined(playerId: string)
    | Left(playerId: string)

  /** A socket the manager opened, with the address it was opened on. */
  datatype Link = Link(url: string)

  /** A reconnection timer: initialize(url) after `delay` milliseconds. */
  datatype Retry = Retry(url: string, delay: nat)

  class MultiplayerManager {
    var ws: Option<Link>
    var isConnected: bool
    const playerId: string
    var isHost: bool
    var reconnectAttempts: nat
    /** Which of the three callbacks the game has registered. */
    var onStateUpdate: bool
    var onPlayerJoin: bool
    var onPlayerLeave: bool
    /** The messages handed to `ws.send` without an exception, in order. */
    var sent: seq<Outgoing>
    /** The callbacks called, in order. */
    var notices: seq<Notice>
    /** The reconnection timers armed, in order. */
    var retries: seq<Retry>
    /** The sockets closed by disconnect, in order. */
    var closed: seq<Link>
    /** The health addresses probed, in order. */
    var probes: seq<string>
    /** Whether the 5-second connection timeout of the last initialize is still armed. */
    var timeoutArmed: bool
    /** What the promise of the last initialize settled to, `None` while it is pending. */
    var outcome: Option<bool>

    /**
     * The manager's invariant: the retry count stays within its maximum, it
     * counts as connected only with a socket, and every message it has sent
     * other than a ping names its own player.
     */
    ghost predicate Valid()
      reads this
    {
      && reconnectAttempts <= MAX_RECONNECT_ATTEMPTS
      && (isConnected ==> ws.Some?)
      && (forall m :: m in sent ==> m.Ping? || m.playerId == playerId)
    }

    /** constructor: a fresh player id, no socket, nothing registered or sent. */
    constructor (rendering: string)
      ensures Valid()
      ensures playerId == GeneratePlayerId(rendering)
      ensures ws == None && !isConnected && !isHost && reconnectAttempts == 0
      ensures !onStateUpdate && !onPlayerJoin && !onPlayerLeave
      ensures sent == [] && notices == [] && retries == [] && closed == [] && probes == []
      ensures !timeoutArmed && outcome == None
    {
      ws := None;
      isConnected := false;
      playerId := GeneratePlayerId(rendering);
      isHost := false;
      reconnectAttempts := 0;
      onStateUpdate, onPlayerJoin, onPlayerLeave := false, false, false;
      sent, notices, retries, closed, probes := [], [], [], [], [];
      timeoutArmed := false;
      outcome := None;
    }

    /** onGameStateUpdate, onPlayerJoined, onPlayerLeft: register the callbacks. */
    method Register(state: bool, joined: bool, left: bool)
      modifies this`onStateUpdate, this`onPlayerJoin, this`onPlayerLeave
      ensures onStateUpdate == (old(onStateUpdate) || state)
      ensures onPlayerJoin == (old(onPlayerJoin) || joined)
      ensures onPlayerLeave == (old(onPlayerLeave) || left)
    {
      onStateUpdate := onStateUpdate || state;
      onPlayerJoin := onPlayerJoin || joined;
      onPlayerLeave := onPlayerLeave || left;
    }

    /** The promise's resolve: only the first call settles it. */
    method Resolve(value: bool)
      modifies this`outcome
      ensures outcome == if old(outcome).None? then Some(value) else old(outcome)
    {
      if outcome.None? {
        outcome := Some(value);
      }
    }

    /**
     * initialize: probe the health address; when the server is not available,
     * or the WebSocket constructor rejects the address, settle to false at
     * once. Otherwise open a socket on the address and arm the 5-second
     * timeout; the promise is then settled by the socket's events.
     */
    method Initialize(serverUrl: string, response: Option<bool>, rejected: bool)
      requires Valid()
      modifies this`ws, this`probes, this`timeoutArmed, this`outcome
      ensures Valid()
      ensures probes == old(probes) + [HealthUrl(serverUrl)]
      ensures !ServerAvailable(response) || rejected ==>
        ws == old(ws) && outcome == Some(false) && timeoutArmed == old(timeoutArmed)
      ensures ServerAvailable(response) && !rejected ==>
        ws == Some(Link(serverUrl)) && outcome == None && timeoutArmed
    {
      probes := probes + [HealthUrl(serverUrl)];
      if !ServerAvailable(response) {
        outcome := Some(false);
        return;
      }
      if rejected {
        outcome := Some(false);
        return;
      }
      ws := Some(Link(serverUrl));
      outcome := None;
      timeoutArmed := true;
    }

    /**
     * send: hands the message to the socket only while there is one and the
     * manager counts as connected; a send that throws marks it disconnected.
     */
    method Send(msg: Outgoing, throws: bool)
      modifies this`sent, this`isConnected
      ensures old(ws.Some? && isConnected) && !throws ==> sent == old(sent) + [msg] && isConnected
      ensures old(ws.Some? && isConnected) && throws ==> sent == old(sent) && !isConnected
      ensures !old(ws.Some? && isConnected) ==> sent == old(sent) && isConnected == old(isConnected)
    {
      if ws.Some? && isConnected {
        if throws {
          isConnected := false;
        } else {
          sent := sent + [msg];
        }
      }
    }

    /** onopen: the timeout is cleared, the manager is connected with a fresh retry count, it sends its join, and the promise settles to true. */
    method OnOpen(throws: bool)
      requires Valid() && ws.Some?
      modifies this`timeoutArmed, this`isConnected, this`reconnectAttempts, this`sent, this`outcome
      ensures Valid()
      ensures !timeoutArmed && reconnectAttempts == 0
      ensures !throws ==> isConnected && sent == old(sent) + [Join(playerId)]
      ensures throws ==> !isConnected && sent == old(sent)
      ensures outcome == if old(outcome).None? then Some(true) else old(outcome)
    {
      timeoutArmed := false;
      isConnected := true;
      reconnectAttempts := 0;
      Send(Join(playerId), throws);
      Resolve(true);
    }

    /** onerror: the timeout is cleared, the manager is not connected, and the promise settles to false. */
    method OnError()
      requires Valid()
      modifies this`timeoutArmed, this`isConnected, this`outcome
      ensures Valid()
      ensures !timeoutArmed && !isConnected
      ensures outcome == if old(outcome).None? then Some(false) else old(outcome)
    {
      timeoutArmed := false;
      isConnected := false;
      Resolve(false);
    }

    /** attemptReconnect: below the maximum, count one more attempt and arm a retry after 1000 ms times that count; otherwise give up. */
    method AttemptReconnect(serverUrl: string)
      requires Valid()
      modifies this`reconnectAttempts, this`retries
      ensures Valid()
      ensures old(reconnectAttempts) < MAX_RECONNECT_ATTEMPTS ==>
        reconnectAttempts == old(reconnectAttempts) + 1 && retries == old(retries) + [Retry(serverUrl, RECONNECT_DELAY * reconnectAttempts)]
      ensures old(reconnectAttempts) >= MAX_RECONNECT_ATTEMPTS ==>
        reconnectAttempts == old(reconnectAttempts) && retries == old(retries)
      ensures |retries| - |old(retries)| == |Retries(old(reconnectAttempts), 1)|
      ensures forall i :: |old(retries)| <= i < |retries| ==>
        retries[i] == Retry(serverUrl, Retries(old(reconnectAttempts), 1)[i - |old(retries)|])
    {
      if reconnectAttempts < MAX_RECONNECT_ATTEMPTS {
        reconnectAttempts := reconnectAttempts + 1;
        retries := retries + [Retry(serverUrl, RECONNECT_DELAY * reconnectAttempts)];
      }
    }

    /** onclose, for the socket opened on `serverUrl`: the manager is not connected and tries to reconnect. */
    method OnClose(serverUrl: string)
      requires Valid()
      modifies this`isConnected, this`reconnectAttempts, this`retries
      ensures Valid()
      ensures !isConnected
      ensures old(reconnectAttempts) < MAX_RECONNECT_ATTEMPTS ==>
        reconnectAttempts == old(reconnectAttempts) + 1 && retries == old(retries) + [Retry(serverUrl, RECONNECT_DELAY * reconnectAttempts)]
      ensures old(reconnectAttempts) >= MAX_RECONNECT_ATTEMPTS ==>
        reconnectAttempts == old(reconnectAttempts) && retries == old(retries)
    {
      isConnected := false;
      AttemptReconnect(serverUrl);
    }

    /** disconnect: close and drop the socket if there is one; either way the manager is not connected. */
    method Disconnect()
      requires Valid()
      modifies this`ws, this`closed, this`isConnected
      ensures Valid()
      ensures ws == None && !isConnected
      ensures closed == old(closed) + (if old(ws).Some? then [old(ws).value] else [])
    {
      if ws.Some? {
        closed := closed + [ws.value];
        ws := None;
      }
      isConnected := false;
    }

    /** The connection timeout firing (it fires only while armed): disconnect, and the promise settles to false. */
    method OnTimeout()
      requires Valid() && timeoutArmed
      modifies this`timeoutArmed, this`ws, this`closed, this`isConnected, this`outcome
      ensures Valid()
      ensures !timeoutArmed && ws == None && !isConnected
      ensures closed == old(closed) + (if old(ws).Some? then [old(ws).value] else [])
      ensures outcome == if old(outcome).None? then Some(false) else old(outcome)
    {
      timeoutArmed := false;
      Disconnect();
      Resolve(false);
    }

    /**
     * handleMessage (after onmessage's JSON.parse): a playerJoined naming this
     * player sets the host flag to the message's flag (false when absent),
     * and each of gameState, playerJoined and playerLeft is passed on to its
     * callback when one is registered. Nothing else changes.
     */
    method HandleMessage(m: Incoming)
      modifies this`isHost, this`notices
      ensures isHost == if m.PlayerJoined? && m.playerId == playerId then m.isHost == Some(true) else old(isHost)
      ensures m.GameState? && onStateUpdate ==> notices == old(notices) + [StateUpdated(m.players, m.collectibles)]
      ensures m.PlayerJoined? && onPlayerJoin ==> notices == old(notices) + [Joined(m.playerId)]
      ensures m.PlayerLeft? && onPlayerLeave ==> notices == old(notices) + [Left(m.playerId)]
      ensures !(m.GameState? && onStateUpdate) && !(m.PlayerJoined? && onPlayerJoin) && !(m.PlayerLeft? && onPlayerLeave) ==>
        notices == old(notices)
    {
      match m
      case GameState(players, collectibles) =>
        if onStateUpdate {
          notices := notices + [StateUpdated(players, collectibles)];
        }
      case PlayerJoined(id, host) =>
        if id == playerId {
          isHost := host == Some(true);
        }
        if onPlayerJoin {
          notices := notices + [Joined(id)];
        }
      case PlayerLeft(id) =>
        if onPlayerLeave {
          notices := notices + [Left(id)];
        }
      case Pong =>
      case Other(_) =>
      case Garbled =>
    }

    /** updatePlayerPosition: while connected, send this player's position. */
    method UpdatePlayerPosition(position: Session.Position, throws: bool)
      requires Valid()
      modifies this`sent, this`isConnected
      ensures Valid()
      ensures old(isConnected) && !throws ==> sent == old(sent) + [PlayerUpdate(playerId, position)] && isConnected
      ensures old(isConnected) && throws ==> sent == old(sent) && !isConnected
      ensures !old(isConnected) ==> sent == old(sent) && !isConnected
    {
      if !isConnected {
        return;
      }
      Send(PlayerUpdate(playerId, position), throws);
    }

    /** collectItem: while connected, report that this player collected the item. */
    method CollectItem(collectibleId: string, throws: bool)
      requires Valid()
      modifies this`sent, this`isConnected
      ensures Valid()
      ensures old(isConnected) && !throws ==> sent == old(sent) + [Outgoing.CollectItem(playerId, collectibleId)] && isConnected
      ensures old(isConnected) && throws ==> sent == old(sent) && !isConnected
      ensures !old(isConnected) ==> sent == old(sent) && !isConnected
    {
      if !isConnected {
        return;
      }
      Send(Outgoing.CollectItem(playerId, collectibleId), throws);
    }

    /** ping: while connected, send a ping. */
    method Ping(throws: bool)
      requires Valid()
      modifies this`sent, this`isConnected
      ensures Valid()
      ensures old(isConnected) && !throws ==> sent == old(sent) + [Outgoing.Ping] && isConnected
      ensures old(isConnected) && throws ==> sent == old(sent) && !isConnected
      ensures !old(isConnected) ==> sent == old(sent) && !isConnected
    {
      if isConnected {
        Send(Outgoing.Ping, throws);
      }
    }
  }
}

=== FILE: geometry.dfy ===
/**
 * Axis-aligned rectangles of the platformer (src/main.ts, `Rect` and
 * `rectsCollide`). Coordinates are exact reals: y grows downwards, and a
 * rectangle covers [x, x + width) by [y, y + height).
 */
module Geometry {
  datatype Rect = Rect(x: real, y: real, width: real, height: real)

  /** Whether a point lies strictly inside a rectangle. */
  ghost predicate Inside(r: Rect, px: real, py: real)
  {
    r.x < px < r.x + r.width && r.y < py < r.y + r.height
  }

  /** rectsCollide: the two rectangles overlap strictly on both axes. */
  function RectsCollide(a: Rect, b: Rect): (c: bool)
  {
    a.x < b.x + b.width && a.x + a.width > b.x && a.y < b.y + b.height && a.y + a.height > b.y
  }

  lemma CollideIsSymmetric(a: Rect, b: Rect)
    ensures RectsCollide(a, b) == RectsCollide(b, a)
  {
  }

  /**
   * For rectangles of positive size, colliding is the same as sharing an
   * interior point; the centre of the overlap is one.
   */
  lemma CollideIffCommonInteriorPoint(a: Rect, b: Rect)
    requires a.width > 0.0 && a.height > 0.0 && b.width > 0.0 && b.height > 0.0
    ensures RectsCollide(a, b) <==> exists px, py :: Inside(a, px, py) && Inside(b, px, py)
  {
    if RectsCollide(a, b) {
      var left := if a.x < b.x then b.x else a.x;
      var right := if a.x + a.width < b.x + b.width then a.x + a.width else b.x + b.width;
      var top := if a.y < b.y then b.y else a.y;
      var bottom := if a.y + a.height < b.y + b.height then a.y + a.height else b.y + b.height;
      var px := (left + right) / 2.0;
      var py := (top + bottom) / 2.0;
      assert Inside(a, px, py) && Inside(b, px, py);
    }
  }

  /** Rectangles that only share an edge do not collide. */
  lemma TouchingEdgesDoNotCollide(a: Rect, b: Rect)
    requires a.x + a.width == b.x || b.x + b.width == a.x || a.y + a.height == b.y || b.y + b.height == a.y
    ensures !RectsCollide(a, b)
  {
  }
}

=== FILE: layout.dfy ===
/**
 * The level generator of the platformer (src/main.ts, `generateLevel`) as a
 * pure function of the run's Math.random() results, and what it promises
 * about the level it lays out: ground platforms from x = 0 rightwards with
 * gaps of 60 to 140, spikes sunk in gaps, boxes resting on platforms,
 * coins hovering over platforms and moving platforms on their tracks.
 */
module Level {
  import opened Geometry
  import opened Physics

  /** One result of Math.random(): a real in [0, 1). */
  type Draw = r: real | 0.0 <= r < 1.0

  /** The run's Math.random() results, by call number. */
  type Oracle = nat -> Draw

  /** Each pass of the generation loop calls Math.random() six times: every condition draws before it tests anything else. */
  const DRAWS_PER_PASS: nat := 6

  /** The five arrays the generator pushes into. */
  datatype Parts = Parts(platforms: seq<Rect>, collectibles: seq<Collectible>, spikes: seq<Rect>,
                         moving: seq<MovingPlatform>, boxes: seq<Rect>)

  const NoParts := Parts([], [], [], [], [])

  /** Pushing the elements of `b` after those of `a`, array by array. */
  function Then(a: Parts, b: Parts): (c: Parts)
  {
    Parts(a.platforms + b.platforms, a.collectibles + b.collectibles, a.spikes + b.spikes,
          a.moving + b.moving, a.boxes + b.boxes)
  }

  lemma ThenAssoc(a: Parts, b: Parts, c: Parts)
    ensures Then(Then(a, b), c) == Then(a, Then(b, c))
  {
    assert (a.platforms + b.platforms) + c.platforms == a.platforms + (b.platforms + c.platforms);
    assert (a.collectibles + b.collectibles) + c.collectibles == a.collectibles + (b.collectibles + c.collectibles);
    assert (a.spikes + b.spikes) + c.spikes == a.spikes + (b.spikes + c.spikes);
    assert (a.moving + b.moving) + c.moving == a.moving + (b.moving + c.moving);
    assert (a.boxes + b.boxes) + c.boxes == a.boxes + (b.boxes + c.boxes);
  }

  lemma ThenNothing(a: Parts)
    ensures Then(a, NoParts) == a
  {
    assert a.platforms + [] == a.platforms;
    assert a.collectibles + [] == a.collectibles;
    assert a.spikes + [] == a.spikes;
    assert a.moving + [] == a.moving;
    assert a.boxes + [] == a.boxes;
  }

  lemma NothingThen(a: Parts)
    ensures Then(NoParts, a) == a
  {
    assert [] + a.platforms == a.platforms;
    assert [] + a.collectibles == a.collectibles;
    assert [] + a.spikes == a.spikes;
    assert [] + a.moving == a.moving;
    assert [] + a.boxes == a.boxes;
  }

  // ---------------------------------------------------------------- the shapes the generator places

  function Ground(x: real, width: real): (g: Rect)
  {
    Rect(x, GROUND_Y, width, 50.0)
  }

  function Coin(x: real, width: real): (c: Collectible)
  {
    Collectible(x + width / 2.0 - 10.0, GROUND_Y - 30.0, 20.0, 20.0, false)
  }

  function Spike(x: real): (s: Rect)
  {
    Rect(x - 40.0, GROUND_Y + 35.0, 40.0, 15.0)
  }

  function Mover(x: real): (m: MovingPlatform)
  {
    MovingPlatform(x - 60.0, GROUND_Y - 100.0, 80.0, 20.0, 2.0, 120.0, x - 60.0)
  }

  function Crate(x: real): (c: Rect)
  {
    Rect(x + 10.0, GROUND_Y - 40.0, 40.0, 40.0)
  }

  /** One pass of the loop body at `x`, drawing rng(d) to rng(d + 5): what it pushes, and the next x. */
  datatype Pass = Pass(parts: Parts, next: real)

  /** The pushes of one pass, each decided by its own draw. */
  function PlatformWidth(r: Draw): (w: real)
  {
    if r < 0.2 then 80.0 else 160.0
  }

  function CoinPush(x: real, width: real, r: Draw): (coins: seq<Collectible>)
  {
    if r < 0.5 then [Coin(x, width)] else []
  }

  function SpikePush(x: real, r: Draw): (spikes: seq<Rect>)
  {
    if r < 0.3 && x > 0.0 then [Spike(x)] else []
  }

  function MoverPush(x: real, r: Draw): (movers: seq<MovingPlatform>)
  {
    if r < 0.2 && x > 0.0 then [Mover(x)] else []
  }

  /** A moving platform is generated on its track. */
  lemma MoverPushSwept(x: real, r: Draw)
    ensures forall m :: m in MoverPush(x, r) ==> Swept(m)
  {
  }

  function CratePush(next: real, r: Draw): (crates: seq<Rect>)
  {
    if r < 0.5 && next < LEVEL_WIDTH - 50.0 then [Crate(next)] else []
  }

  function Step(x: real, rng: Oracle, d: nat): (p: Pass)
    ensures |p.parts.platforms| == 1 && p.parts.platforms[0].x == x
    ensures 60.0 <= p.next - (x + p.parts.platforms[0].width) < 140.0
  {
    var width := PlatformWidth(rng(d));
    var next := x + width + (60.0 + rng(d + 4) * 80.0);
    Pass(Parts([Ground(x, width)], CoinPush(x, width, rng(d + 1)), SpikePush(x, rng(d + 2)),
               MoverPush(x, rng(d + 3)), CratePush(next, rng(d + 5))),
         next)
  }

  /** Pushes made one by one, as the loop body makes them, add up to one pass. */
  lemma PassPushes(before: Parts, after: Parts, x: real, next: real, rng: Oracle, d: nat)
    requires after.platforms == before.platforms + [Ground(x, PlatformWidth(rng(d)))]
    requires after.collectibles == before.collectibles + CoinPush(x, PlatformWidth(rng(d)), rng(d + 1))
    requires after.spikes == before.spikes + SpikePush(x, rng(d + 2))
    requires after.moving == before.moving + MoverPush(x, rng(d + 3))
    requires next == x + PlatformWidth(rng(d)) + (60.0 + rng(d + 4) * 80.0)
    requires after.boxes == before.boxes + CratePush(next, rng(d + 5))
    ensures after == Then(before, Step(x, rng, d).parts) && next == Step(x, rng, d).next
  {
  }

  /**
   * The whole loop from `x` on, with the draws numbered from `d`. It is the
   * loop test of `Loop` under its own name: one more link in the recursion,
   * so that a mention of a level does not by itself spell out its first pass
   * (`Unroll` and `Ends` do that).
   */
  function Generate(x: real, rng: Oracle, d: nat): (p: Parts)
    decreases (LEVEL_WIDTH - x).Floor, 2
  {
    Loop(x, rng, d)
  }

  /** The loop test: nothing at or past the level width, otherwise a pass and the rest. */
  function Loop(x: real, rng: Oracle, d: nat): (p: Parts)
    decreases (LEVEL_WIDTH - x).Floor, 1
  {
    if x >= LEVEL_WIDTH then NoParts else Continue(x, rng, d)
  }

  /** One pass at `x`, then the loop from where it leaves off. */
  function Continue(x: real, rng: Oracle, d: nat): (p: Parts)
    requires x < LEVEL_WIDTH
    decreases (LEVEL_WIDTH - x).Floor, 0
  {
    var pass := Step(x, rng, d);
    Then(pass.parts, Generate(pass.next, rng, d + DRAWS_PER_PASS))
  }

  /** Inside the level, the loop is its first pass followed by the loop from where that pass leaves off. */
  lemma Unroll(x: real, rng: Oracle, d: nat)
    requires x < LEVEL_WIDTH
    ensures Generate(x, rng, d) == Then(Step(x, rng, d).parts, Generate(Step(x, rng, d).next, rng, d + DRAWS_PER_PASS))
  {
    assert Generate(x, rng, d) == Continue(x, rng, d);
  }

  /** At or past the level width, the loop adds nothing. */
  lemma Ends(x: real, rng: Oracle, d: nat)
    requires x >= LEVEL_WIDTH
    ensures Generate(x, rng, d) == NoParts
  {
    assert Generate(x, rng, d) == Loop(x, rng, d);
  }

  /**
   * One turn of generateLevel's loop: when the arrays hold `start` followed
   * by the passes so far (`acc`), and those passes followed by the rest of
   * the loop make the whole level, one more pass moves a prefix of the rest
   * into the arrays. The platform count grows by one, the number of passes
   * still to come drops, and moving platforms stay on their tracks.
   */
  lemma PassMovesOn(start: Parts, acc: Parts, before: Parts, after: Parts, x: real, next: real, rng: Oracle, d: nat, whole: Parts)
    requires x < LEVEL_WIDTH
    requires before == Then(start, acc) && Then(acc, Generate(x, rng, d)) == whole
    requires after == Then(before, Step(x, rng, d).parts) && next == Step(x, rng, d).next
    requires OnTracks(before.moving)
    ensures after == Then(start, Then(acc, Step(x, rng, d).parts))
    ensures Then(Then(acc, Step(x, rng, d).parts), Generate(next, rng, d + DRAWS_PER_PASS)) == whole
    ensures |Then(acc, Step(x, rng, d).parts).platforms| == |acc.platforms| + 1
    ensures |Generate(next, rng, d + DRAWS_PER_PASS).platforms| < |Generate(x, rng, d).platforms|
    ensures OnTracks(after.moving)
  {
    var pass := Step(x, rng, d);
    Unroll(x, rng, d);
    ThenAssoc(acc, pass.parts, Generate(next, rng, d + DRAWS_PER_PASS));
    ThenAssoc(start, acc, pass.parts);
    MoverPushSwept(x, rng(d + 3));
    OnTracksAppend(before.moving, MoverPush(x, rng(d + 3)));
  }

  // ---------------------------------------------------------------- platforms

  predicate IsGround(p: Rect)
  {
    p.y == GROUND_Y && p.height == 50.0 && (p.width == 80.0 || p.width == 160.0) && p.x < LEVEL_WIDTH
  }

  /** Consecutive platforms are separated by a gap of at least 60 and less than 140. */
  predicate Gapped(ps: seq<Rect>)
  {
    forall i :: 0 < i < |ps| ==> 60.0 <= ps[i].x - (ps[i - 1].x + ps[i - 1].width) < 140.0
  }

  /**
   * From any start, the loop lays ground platforms 80 or 160 wide, all
   * starting at or after `x` and before the level width, the first exactly
   * at `x` (when `x` is inside the level), with gaps in [60, 140).
   */
  lemma {:induction false} GeneratePlatforms(x: real, rng: Oracle, d: nat)
    ensures var ps := Generate(x, rng, d).platforms;
      && (x < LEVEL_WIDTH <==> ps != [])
      && (ps != [] ==> ps[0].x == x)
      && (forall i :: 0 <= i < |ps| ==> IsGround(ps[i]) && x <= ps[i].x)
      && Gapped(ps)
    decreases (LEVEL_WIDTH - x).Floor
  {
    if x < LEVEL_WIDTH {
      var pass := Step(x, rng, d);
      var rest := Generate(pass.next, rng, d + DRAWS_PER_PASS);
      Unroll(x, rng, d);
      GeneratePlatforms(pass.next, rng, d + DRAWS_PER_PASS);
      var ps := Generate(x, rng, d).platforms;
      assert ps == pass.parts.platforms + rest.platforms;
      forall i | 0 < i < |ps|
        ensures 60.0 <= ps[i].x - (ps[i - 1].x + ps[i - 1].width) < 140.0
      {
        if i == 1 {
          assert ps[1] == rest.platforms[0];
        } else {
          assert ps[i] == rest.platforms[i - 1] && ps[i - 1] == rest.platforms[i - 2];
        }
      }
    } else {
      Ends(x, rng, d);
    }
  }

  /** Every platform ends at least 60 before any later platform starts: the platforms never overlap and their x strictly increases. */
  lemma {:induction false} GappedAscends(ps: seq<Rect>, i: nat, j: nat)
    requires Gapped(ps) && i < j < |ps|
    requires forall k :: 0 <= k < |ps| ==> ps[k].width >= 0.0
    ensures ps[i].x + ps[i].width + 60.0 <= ps[j].x
    decreases j - i
  {
    if i + 1 < j {
      GappedAscends(ps, i, j - 1);
    }
  }

  /** Every pass moves x on by at least 140 and less than 300: the loop makes between a ninth and a seventeenth of its span in passes. */
  lemma {:induction false} GenerateCount(x: real, rng: Oracle, d: nat)
    requires x < LEVEL_WIDTH
    ensures var n := |Generate(x, rng, d).platforms| as real;
      (n - 1.0) * 140.0 < LEVEL_WIDTH - x < n * 300.0
    decreases (LEVEL_WIDTH - x).Floor
  {
    var pass := Step(x, rng, d);
    var rest := Generate(pass.next, rng, d + DRAWS_PER_PASS);
    Unroll(x, rng, d);
    assert |Generate(x, rng, d).platforms| == 1 + |rest.platforms|;
    if pass.next < LEVEL_WIDTH {
      GenerateCount(pass.next, rng, d + DRAWS_PER_PASS);
    }
  }

  // ---------------------------------------------------------------- the other four arrays

  /** A spike sits in the gap just before a platform that does not start at 0. */
  predicate SpikeBefore(s: Rect, ps: seq<Rect>)
  {
    exists i :: 0 <= i < |ps| && ps[i].x > 0.0 && s == Spike(ps[i].x)
  }

  /** A moving platform starts 60 before a platform that does not start at 0, at its start x. */
  predicate MoverBefore(m: MovingPlatform, ps: seq<Rect>)
  {
    exists i :: 0 <= i < |ps| && ps[i].x > 0.0 && m == Mover(ps[i].x)
  }

  /** A box stands 10 in from the left end of a platform other than the first, one that starts before 2350. */
  predicate CrateOn(b: Rect, ps: seq<Rect>)
  {
    exists i :: 0 < i < |ps| && ps[i].x < LEVEL_WIDTH - 50.0 && b == Crate(ps[i].x)
  }

  /** A coin hovers, uncollected, over the middle of a platform. */
  predicate CoinOver(c: Collectible, ps: seq<Rect>)
  {
    exists i :: 0 <= i < |ps| && c == Coin(ps[i].x, ps[i].width)
  }

  /** Facts about the whole level used by the placement lemmas: it is `Then` of the first pass and the rest, shifted by one platform. */
  lemma {:induction false} Unfold(x: real, rng: Oracle, d: nat)
    requires x < LEVEL_WIDTH
    ensures var pass := Step(x, rng, d);
      var rest := Generate(pass.next, rng, d + DRAWS_PER_PASS);
      var p := Generate(x, rng, d);
      && p == Then(pass.parts, rest)
      && p.platforms[0] == pass.parts.platforms[0]
      && (forall i :: 0 <= i < |rest.platforms| ==> p.platforms[i + 1] == rest.platforms[i])
  {
    Unroll(x, rng, d);
  }

  /** Spikes are pushed only for passes with x > 0, into the gap before that pass's platform. */
  lemma {:induction false} GenerateSpikes(x: real, rng: Oracle, d: nat)
    ensures var p := Generate(x, rng, d);
      forall k :: 0 <= k < |p.spikes| ==> SpikeBefore(p.spikes[k], p.platforms)
    decreases (LEVEL_WIDTH - x).Floor
  {
    if x < LEVEL_WIDTH {
      var pass := Step(x, rng, d);
      var rest := Generate(pass.next, rng, d + DRAWS_PER_PASS);
      GenerateSpikes(pass.next, rng, d + DRAWS_PER_PASS);
      Unfold(x, rng, d);
      var p := Generate(x, rng, d);
      forall k | 0 <= k < |p.spikes| ensures SpikeBefore(p.spikes[k], p.platforms) {
        if k < |pass.parts.spikes| {
          assert p.spikes[k] == Spike(p.platforms[0].x);
        } else {
          var i :| 0 <= i < |rest.platforms| && rest.platforms[i].x > 0.0
            && p.spikes[k] == Spike(rest.platforms[i].x);
          assert p.platforms[i + 1] == rest.platforms[i];
        }
      }
    }
  }

  /** Moving platforms are pushed only for passes with x > 0, starting 60 before that pass's platform. */
  lemma {:induction false} GenerateMovers(x: real, rng: Oracle, d: nat)
    ensures var p := Generate(x, rng, d);
      forall k :: 0 <= k < |p.moving| ==> MoverBefore(p.moving[k], p.platforms)
    decreases (LEVEL_WIDTH - x).Floor
  {
    if x < LEVEL_WIDTH {
      var pass := Step(x, rng, d);
      var rest := Generate(pass.next, rng, d + DRAWS_PER_PASS);
      GenerateMovers(pass.next, rng, d + DRAWS_PER_PASS);
      Unfold(x, rng, d);
      var p := Generate(x, rng, d);
      forall k | 0 <= k < |p.moving| ensures MoverBefore(p.moving[k], p.platforms) {
        if k < |pass.parts.moving| {
          assert p.moving[k] == Mover(p.platforms[0].x);
        } else {
          var i :| 0 <= i < |rest.platforms| && rest.platforms[i].x > 0.0
            && p.moving[k] == Mover(rest.platforms[i].x);
          assert p.platforms[i + 1] == rest.platforms[i];
        }
      }
    }
  }

  /** A box is pushed only when the advanced x is below 2350, and so stands on the next pass's platform. */
  lemma {:induction false} GenerateCrates(x: real, rng: Oracle, d: nat)
    ensures var p := Generate(x, rng, d);
      forall k :: 0 <= k < |p.boxes| ==> CrateOn(p.boxes[k], p.platforms)
    decreases (LEVEL_WIDTH - x).Floor
  {
    if x < LEVEL_WIDTH {
      var pass := Step(x, rng, d);
      var rest := Generate(pass.next, rng, d + DRAWS_PER_PASS);
      GenerateCrates(pass.next, rng, d + DRAWS_PER_PASS);
      Unfold(x, rng, d);
      var p := Generate(x, rng, d);
      forall k | 0 <= k < |p.boxes| ensures CrateOn(p.boxes[k], p.platforms) {
        if k < |pass.parts.boxes| {
          GeneratePlatforms(pass.next, rng, d + DRAWS_PER_PASS);
          assert p.platforms[1] == rest.platforms[0];
          assert p.boxes[k] == Crate(p.platforms[1].x);
        } else {
          var i :| 0 < i < |rest.platforms| && rest.platforms[i].x < LEVEL_WIDTH - 50.0
            && p.boxes[k] == Crate(rest.platforms[i].x);
          assert p.platforms[i + 1] == rest.platforms[i];
        }
      }
    }
  }

  /** A coin is pushed over the middle of the platform of its own pass. */
  lemma {:induction false} GenerateCoins(x: real, rng: Oracle, d: nat)
    ensures var p := Generate(x, rng, d);
      forall k :: 0 <= k < |p.collectibles| ==> CoinOver(p.collectibles[k], p.platforms)
    decreases (LEVEL_WIDTH - x).Floor
  {
    if x < LEVEL_WIDTH {
      var pass := Step(x, rng, d);
      var rest := Generate(pass.next, rng, d + DRAWS_PER_PASS);
      GenerateCoins(pass.next, rng, d + DRAWS_PER_PASS);
      Unfold(x, rng, d);
      var p := Generate(x, rng, d);
      forall k | 0 <= k < |p.collectibles| ensures CoinOver(p.collectibles[k], p.platforms) {
        if k < |pass.parts.collectibles| {
          assert p.collectibles[k] == Coin(p.platforms[0].x, p.platforms[0].width);
        } else {
          assert p.collectibles[k] == rest.collectibles[k - |pass.parts.collectibles|];
          var i :| 0 <= i < |rest.platforms|
            && p.collectibles[k] == Coin(rest.platforms[i].x, rest.platforms[i].width);
          assert p.platforms[i + 1] == rest.platforms[i];
        }
      }
    }
  }

  // ---------------------------------------------------------------- the level as a whole

  /** A level generated from x = 0 has between 9 and 18 platforms, the first at 0. */
  lemma LevelSize(rng: Oracle, d: nat)
    ensures var ps := Generate(0.0, rng, d).platforms;
      9 <= |ps| <= 18 && ps[0].x == 0.0
  {
    var n := |Generate(0.0, rng, d).platforms|;
    GeneratePlatforms(0.0, rng, d);
    GenerateCount(0.0, rng, d);
    assert (n as real - 1.0) * 140.0 < 2400.0 < n as real * 300.0;
  }

  /** A spike in the gap before platform i misses platform j: the earlier ones end at least 60 before platform i, the later ones start after it. */
  lemma SpikeMisses(ps: seq<Rect>, i: nat, j: nat)
    requires Gapped(ps) && forall k :: 0 <= k < |ps| ==> IsGround(ps[k])
    requires i < |ps| && j < |ps|
    ensures !RectsCollide(Spike(ps[i].x), ps[j])
  {
    if j < i {
      GappedAscends(ps, j, i);
    } else if i < j {
      GappedAscends(ps, i, j);
    }
  }

  /** In a level generated from any start no spike overlaps any platform: each lies inside a gap. */
  lemma SpikesMissPlatforms(x: real, rng: Oracle, d: nat)
    ensures var p := Generate(x, rng, d);
      forall k, j :: 0 <= k < |p.spikes| && 0 <= j < |p.platforms| ==> !RectsCollide(p.spikes[k], p.platforms[j])
  {
    var p := Generate(x, rng, d);
    var ps := p.platforms;
    GeneratePlatforms(x, rng, d);
    GenerateSpikes(x, rng, d);
    forall k, j | 0 <= k < |p.spikes| && 0 <= j < |ps|
      ensures !RectsCollide(p.spikes[k], ps[j])
    {
      assert SpikeBefore(p.spikes[k], ps);
      var i :| 0 <= i < |ps| && ps[i].x > 0.0 && p.spikes[k] == Spike(ps[i].x);
      SpikeMisses(ps, i, j);
    }
  }

  /** The box stands on top of some platform, within its span. */
  predicate RestsOn(b: Rect, ps: seq<Rect>)
  {
    exists j :: 0 <= j < |ps| && b.y + b.height == ps[j].y && ps[j].x <= b.x && b.x + b.width <= ps[j].x + ps[j].width
  }

  /** The coin floats above some platform, within its span. */
  predicate Hovers(c: Collectible, ps: seq<Rect>)
  {
    exists j :: 0 <= j < |ps| && c.y + c.height < ps[j].y && ps[j].x <= c.x && c.x + c.width <= ps[j].x + ps[j].width
  }

  /** In a generated level every box rests on a platform, every coin hovers over one, and every moving platform starts on its track. */
  lemma ItemsSitOnPlatforms(x: real, rng: Oracle, d: nat)
    ensures var p := Generate(x, rng, d);
      && (forall k :: 0 <= k < |p.boxes| ==> RestsOn(p.boxes[k], p.platforms))
      && (forall k :: 0 <= k < |p.collectibles| ==> Hovers(p.collectibles[k], p.platforms))
      && (forall k :: 0 <= k < |p.moving| ==> Swept(p.moving[k]))
  {
    var p := Generate(x, rng, d);
    var ps := p.platforms;
    GeneratePlatforms(x, rng, d);
    GenerateCrates(x, rng, d);
    GenerateCoins(x, rng, d);
    GenerateMovers(x, rng, d);
    forall k | 0 <= k < |p.boxes| ensures RestsOn(p.boxes[k], ps) {
      assert CrateOn(p.boxes[k], ps);
      var i :| 0 < i < |ps| && ps[i].x < LEVEL_WIDTH - 50.0 && p.boxes[k] == Crate(ps[i].x);
      assert IsGround(ps[i]);
    }
    forall k | 0 <= k < |p.collectibles| ensures Hovers(p.collectibles[k], ps) {
      assert CoinOver(p.collectibles[k], ps);
      var i :| 0 <= i < |ps| && p.collectibles[k] == Coin(ps[i].x, ps[i].width);
      assert IsGround(ps[i]);
    }
    forall k | 0 <= k < |p.moving| ensures Swept(p.moving[k]) {
      assert MoverBefore(p.moving[k], ps);
    }
  }
}

=== FILE: physics.dfy ===
/**
 * One frame of the platformer's physics (src/main.ts, `update`), phase by
 * phase, as pure functions of the state before the phase. The World class
 * runs these phases in place; the lemmas here state what each phase does.
 */
module Physics {
  import opened Geometry

  const GRAVITY: real := 0.5
  const MOVE_SPEED: real := 4.0
  const JUMP_POWER: real := 12.0
  const GROUND_Y: real := 400.0
  const LEVEL_WIDTH: real := 2400.0
  /** `levelEndX`: touching this x with the player's right edge finishes the level. */
  const LEVEL_END_X: real := LEVEL_WIDTH - 100.0
  const SPAWN_X: real := 100.0
  const SPAWN_Y: real := GROUND_Y - 50.0

  /** The player object. */
  datatype Body = Body(x: real, y: real, width: real, height: real, vx: real, vy: real, onGround: bool)

  function BoxOf(b: Body): (box: Rect)
  {
    Rect(b.x, b.y, b.width, b.height)
  }

  /** The keys `update` reads (by their KeyboardEvent codes). */
  datatype Keys = Keys(arrowLeft: bool, keyA: bool, arrowRight: bool, keyD: bool, arrowUp: bool, space: bool, keyW: bool)

  predicate LeftHeld(k: Keys)
  {
    k.arrowLeft || k.keyA
  }

  predicate RightHeld(k: Keys)
  {
    k.arrowRight || k.keyD
  }

  predicate JumpHeld(k: Keys)
  {
    k.arrowUp || k.space || k.keyW
  }

  datatype MovingPlatform = MovingPlatform(x: real, y: real, width: real, height: real, dx: real, range: real, startX: real)

  function MovingBox(p: MovingPlatform): (box: Rect)
  {
    Rect(p.x, p.y, p.width, p.height)
  }

  datatype Collectible = Collectible(x: real, y: real, width: real, height: real, collected: bool)

  function ItemBox(c: Collectible): (box: Rect)
  {
    Rect(c.x, c.y, c.width, c.height)
  }

  // ---------------------------------------------------------------- steps 1 to 4

  /**
   * Input to velocity (right is checked last, so it wins), a jump only from
   * the ground, gravity, then one step of motion.
   */
  function Steer(b: Body, k: Keys): (b': Body)
    ensures b'.width == b.width && b'.height == b.height
  {
    var vx := if RightHeld(k) then MOVE_SPEED else if LeftHeld(k) then -MOVE_SPEED else 0.0;
    var jumps := JumpHeld(k) && b.onGround;
    var vy := (if jumps then -JUMP_POWER else b.vy) + GRAVITY;
    Body(b.x + vx, b.y + vy, b.width, b.height, vx, vy, if jumps then false else b.onGround)
  }

  lemma SteerHorizontal(b: Body, k: Keys)
    ensures !LeftHeld(k) && !RightHeld(k) ==> Steer(b, k).vx == 0.0
    ensures LeftHeld(k) && !RightHeld(k) ==> Steer(b, k).vx == -4.0
    ensures RightHeld(k) ==> Steer(b, k).vx == 4.0
    ensures Steer(b, k).x == b.x + Steer(b, k).vx
  {
  }

  /** A jump happens only from the ground; otherwise gravity alone changes vy. */
  lemma SteerVertical(b: Body, k: Keys)
    ensures JumpHeld(k) && b.onGround ==> Steer(b, k).vy == -11.5 && !Steer(b, k).onGround
    ensures !(JumpHeld(k) && b.onGround) ==> Steer(b, k).vy == b.vy + 0.5 && Steer(b, k).onGround == b.onGround
    ensures Steer(b, k).y == b.y + Steer(b, k).vy
  {
  }

  // ---------------------------------------------------------------- step 5: platforms

  /** The landing test: falling or resting, bottom strictly inside the platform's band, overlapping horizontally. */
  predicate LandsOn(b: Body, p: Rect)
  {
    && b.y + b.height > p.y
    && b.y + b.height < p.y + p.height
    && b.x + b.width > p.x
    && b.x < p.x + p.width
    && b.vy >= 0.0
  }

  function Land(b: Body, p: Rect): (b': Body)
  {
    if LandsOn(b, p) then b.(y := p.y - b.height, vy := 0.0, onGround := true) else b
  }

  /** The platform loop, in array order. */
  function LandAll(b: Body, ps: seq<Rect>): (b': Body)
    ensures b'.x == b.x && b'.vx == b.vx && b'.width == b.width && b'.height == b.height
  {
    if ps == [] then b else Land(LandAll(b, ps[..|ps| - 1]), ps[|ps| - 1])
  }

  /**
   * After the platform pass (which starts by clearing onGround), the player
   * is on the ground exactly when some platform passed the landing test at
   * its turn.
   */
  lemma LandAllGrounds(b: Body, ps: seq<Rect>)
    requires !b.onGround
    ensures LandAll(b, ps).onGround <==> exists i :: 0 <= i < |ps| && LandsOn(LandAll(b, ps[..i]), ps[i])
  {
    GroundedAfterLanding(b, ps);
    if LandAll(b, ps).onGround {
      LandingBeforeGrounded(b, ps);
    }
  }

  /** A landing at some turn leaves the player on the ground to the end of the pass. */
  lemma {:induction false} GroundedAfterLanding(b: Body, ps: seq<Rect>)
    ensures forall i :: 0 <= i < |ps| && LandsOn(LandAll(b, ps[..i]), ps[i]) ==> LandAll(b, ps).onGround
  {
    if ps != [] {
      var n := |ps| - 1;
      GroundedAfterLanding(b, ps[..n]);
      forall i | 0 <= i < n
        ensures ps[..n][..i] == ps[..i]
      {
      }
    }
  }

  /** Without onGround at the start, a grounded player landed at some turn. */
  lemma {:induction false} LandingBeforeGrounded(b: Body, ps: seq<Rect>)
    requires !b.onGround && LandAll(b, ps).onGround
    ensures exists i :: 0 <= i < |ps| && LandsOn(LandAll(b, ps[..i]), ps[i])
  {
    var n := |ps| - 1;
    var init := ps[..n];
    if LandsOn(LandAll(b, init), ps[n]) {
      assert LandsOn(LandAll(b, ps[..n]), ps[n]);
    } else {
      LandingBeforeGrounded(b, init);
      var i :| 0 <= i < |init| && LandsOn(LandAll(b, init[..i]), init[i]);
      assert init[..i] == ps[..i];
    }
  }

  /** A grounded player after the platform pass stands still with its bottom on the top of some platform. */
  lemma {:induction false} LandAllRests(b: Body, ps: seq<Rect>)
    requires !b.onGround
    ensures LandAll(b, ps).onGround ==>
      LandAll(b, ps).vy == 0.0 && exists i :: 0 <= i < |ps| && LandAll(b, ps).y + b.height == ps[i].y
  {
    if ps != [] {
      var n := |ps| - 1;
      var init := ps[..n];
      var before := LandAll(b, init);
      LandAllRests(b, init);
      if LandsOn(before, ps[n]) {
        assert LandAll(b, ps).y + b.height == ps[n].y;
      } else if before.onGround {
        var i :| 0 <= i < |init| && before.y + b.height == init[i].y;
        assert LandAll(b, ps).y + b.height == ps[i].y;
      }
    }
  }

  // ---------------------------------------------------------------- step 6: boxes

  /** Which response a colliding box picks, in priority order, from the edges before this frame's motion. */
  datatype Response = OnTop | FromLeft | FromRight | FromBelow | Stuck

  function ResponseTo(b: Body, box: Rect): (resp: Response)
  {
    if b.y + b.height - b.vy <= box.y then OnTop
    else if b.x + b.width - b.vx <= box.x then FromLeft
    else if b.x - b.vx >= box.x + box.width then FromRight
    else if b.y - b.vy >= box.y + box.height then FromBelow
    else Stuck
  }

  function PushOut(b: Body, box: Rect): (b': Body)
  {
    if !RectsCollide(BoxOf(b), box) then b
    else
      match ResponseTo(b, box)
      case OnTop => b.(y := box.y - b.height, vy := 0.0, onGround := true)
      case FromLeft => b.(x := box.x - b.width)
      case FromRight => b.(x := box.x + box.width)
      case FromBelow => b.(y := box.y + box.height, vy := 0.0)
      case Stuck => b
  }

  /**
   * A box the player does not touch changes nothing. A colliding box with a
   * response leaves the player flush against one of its sides, so no longer
   * colliding; with no response (the player was already inside) nothing moves.
   */
  lemma PushOutSeparates(b: Body, box: Rect)
    ensures !RectsCollide(BoxOf(b), box) ==> PushOut(b, box) == b
    ensures RectsCollide(BoxOf(b), box) && ResponseTo(b, box) != Stuck ==>
      !RectsCollide(BoxOf(PushOut(b, box)), box)
    ensures ResponseTo(b, box) == Stuck ==> PushOut(b, box) == b
    ensures PushOut(b, box).width == b.width && PushOut(b, box).height == b.height
    ensures var b' := PushOut(b, box);
      RectsCollide(BoxOf(b), box) && ResponseTo(b, box) == OnTop ==>
        b'.y + b'.height == box.y && b'.vy == 0.0 && b'.onGround && b'.x == b.x
    ensures var b' := PushOut(b, box);
      RectsCollide(BoxOf(b), box) && ResponseTo(b, box) == FromLeft ==> b'.x + b'.width == box.x && b'.y == b.y
    ensures var b' := PushOut(b, box);
      RectsCollide(BoxOf(b), box) && ResponseTo(b, box) == FromRight ==> b'.x == box.x + box.width && b'.y == b.y
    ensures var b' := PushOut(b, box);
      RectsCollide(BoxOf(b), box) && ResponseTo(b, box) == FromBelow ==>
        b'.y == box.y + box.height && b'.vy == 0.0 && b'.x == b.x
  {
    if RectsCollide(BoxOf(b), box) {
      var b' := PushOut(b, box);
      match ResponseTo(b, box)
      case OnTop => assert b'.y + b'.height == box.y;
      case FromLeft => assert b'.x + b'.width == box.x;
      case FromRight => assert b'.x == box.x + box.width;
      case FromBelow => assert b'.y == box.y + box.height;
      case Stuck =>
    }
  }

  /** The box loop, in array order. */
  function PushOutAll(b: Body, boxes: seq<Rect>): (b': Body)
    ensures b'.width == b.width && b'.height == b.height
  {
    if boxes == [] then b else PushOut(PushOutAll(b, boxes[..|boxes| - 1]), boxes[|boxes| - 1])
  }

  /** The last box in the loop is always left clear of the player, unless the player was stuck inside it. */
  lemma PushOutAllClearsLastBox(b: Body, boxes: seq<Rect>)
    requires boxes != []
    ensures var before := PushOutAll(b, boxes[..|boxes| - 1]);
      var last := boxes[|boxes| - 1];
      ResponseTo(before, last) != Stuck ==> !RectsCollide(BoxOf(PushOutAll(b, boxes)), last)
  {
    PushOutSeparates(PushOutAll(b, boxes[..|boxes| - 1]), boxes[|boxes| - 1]);
  }

  // ---------------------------------------------------------------- step 7: moving platforms

  /** One frame of a moving platform: advance by dx, and turn round once outside [startX, startX + range]. */
  function Oscillate(p: MovingPlatform): (q: MovingPlatform)
  {
    var x := p.x + p.dx;
    p.(x := x, dx := if x > p.startX + p.range || x < p.startX then -p.dx else p.dx)
  }

  function Abs(r: real): (a: real)
    ensures a >= 0.0 && (a == r || a == -r)
  {
    if r < 0.0 then -r else r
  }

  /**
   * What keeps a moving platform near its track: it is never further than
   * one step outside [startX, startX + range], and outside it, it is already
   * heading back.
   */
  predicate Swept(p: MovingPlatform)
  {
    && p.range >= 0.0
    && p.startX - Abs(p.dx) <= p.x <= p.startX + p.range + Abs(p.dx)
    && (p.x < p.startX ==> p.dx > 0.0)
    && (p.x > p.startX + p.range ==> p.dx < 0.0)
  }

  /** A generated platform starts at its startX, which satisfies the invariant. */
  lemma SweptAtStart(p: MovingPlatform)
    requires p.x == p.startX && p.range >= 0.0
    ensures Swept(p)
  {
  }

  lemma OscillateKeepsSwept(p: MovingPlatform)
    requires Swept(p)
    ensures Swept(Oscillate(p))
    ensures Abs(Oscillate(p).dx) == Abs(p.dx)
    ensures Oscillate(p).startX == p.startX && Oscillate(p).range == p.range && Oscillate(p).y == p.y
  {
  }

  /** Every platform of the list is on its track, stated one platform at a time from the end. */
  predicate OnTracks(ps: seq<MovingPlatform>)
  {
    ps == [] || (OnTracks(ps[..|ps| - 1]) && Swept(ps[|ps| - 1]))
  }

  lemma {:induction false} OnTracksEach(ps: seq<MovingPlatform>)
    ensures OnTracks(ps) <==> forall i :: 0 <= i < |ps| ==> Swept(ps[i])
  {
    if ps != [] {
      var n := |ps| - 1;
      OnTracksEach(ps[..n]);
      assert forall i :: 0 <= i < n ==> ps[..n][i] == ps[i];
    }
  }

  lemma OnTracksAppend(ps: seq<MovingPlatform>, qs: seq<MovingPlatform>)
    requires OnTracks(ps) && forall q :: q in qs ==> Swept(q)
    ensures OnTracks(ps + qs)
  {
    OnTracksEach(ps);
    OnTracksEach(ps + qs);
    forall i | 0 <= i < |ps + qs| ensures Swept((ps + qs)[i]) {
      if i >= |ps| {
        assert (ps + qs)[i] in qs;
      }
    }
  }

  function OscillateAll(ps: seq<MovingPlatform>): (qs: seq<MovingPlatform>)
    ensures |qs| == |ps|
    ensures forall i :: 0 <= i < |ps| ==> qs[i] == Oscillate(ps[i])
  {
    if ps == [] then [] else OscillateAll(ps[..|ps| - 1]) + [Oscillate(ps[|ps| - 1])]
  }

  /** The first loop of step 7 keeps every moving platform on its track. */
  lemma OscillateAllOnTracks(ps: seq<MovingPlatform>)
    requires OnTracks(ps)
    ensures OnTracks(OscillateAll(ps))
  {
    OnTracksEach(ps);
    forall i | 0 <= i < |ps| ensures Swept(OscillateAll(ps)[i]) {
      OscillateKeepsSwept(ps[i]);
    }
    OnTracksEach(OscillateAll(ps));
  }

  /** Riding: a landing on a moving platform also carries the player along by the platform's dx. */
  function Ride(b: Body, p: MovingPlatform): (b': Body)
  {
    if LandsOn(b, MovingBox(p)) then b.(y := p.y - b.height, vy := 0.0, onGround := true, x := b.x + p.dx) else b
  }

  function RideAll(b: Body, ps: seq<MovingPlatform>): (b': Body)
    ensures b'.width == b.width && b'.height == b.height
  {
    if ps == [] then b else Ride(RideAll(b, ps[..|ps| - 1]), ps[|ps| - 1])
  }

  /** A ride snaps the player onto the platform and shifts it by exactly dx; a miss changes nothing. */
  lemma RideCarries(b: Body, p: MovingPlatform)
    ensures LandsOn(b, MovingBox(p)) ==>
      var b' := Ride(b, p);
      b'.x == b.x + p.dx && b'.y + b'.height == p.y && b'.vy == 0.0 && b'.onGround
    ensures !LandsOn(b, MovingBox(p)) ==> Ride(b, p) == b
  {
  }

  // ---------------------------------------------------------------- step 8: collectibles

  predicate Picks(b: Body, c: Collectible)
  {
    !c.collected && RectsCollide(BoxOf(b), ItemBox(c))
  }

  function Pick(b: Body, c: Collectible): (c': Collectible)
  {
    if Picks(b, c) then c.(collected := true) else c
  }

  /** The collectible loop: every uncollected item the player overlaps is marked collected. */
  function CollectAll(b: Body, cs: seq<Collectible>): (cs': seq<Collectible>)
    ensures |cs'| == |cs|
    ensures forall i :: 0 <= i < |cs| ==> cs'[i] == Pick(b, cs[i])
  {
    if cs == [] then [] else CollectAll(b, cs[..|cs| - 1]) + [Pick(b, cs[|cs| - 1])]
  }

  /** How much the score grows: the number of items the loop flips. */
  function Flips(b: Body, cs: seq<Collectible>): (n: nat)
    ensures n <= |cs|
  {
    if cs == [] then 0 else Flips(b, cs[..|cs| - 1]) + (if Picks(b, cs[|cs| - 1]) then 1 else 0)
  }

  /** The number of positions that are collected in `after` but were not in `before`. */
  function NewlyCollected(before: seq<Collectible>, after: seq<Collectible>): (n: nat)
    requires |before| == |after|
  {
    if before == [] then 0
    else
      var n := |before| - 1;
      NewlyCollected(before[..n], after[..n]) + (if !before[n].collected && after[n].collected then 1 else 0)
  }

  /**
   * Collecting never reverts an item, flips only items the player overlaps,
   * and the score gained is exactly the number of items flipped.
   */
  lemma {:induction false} CollectAllCounts(b: Body, cs: seq<Collectible>)
    ensures forall i :: 0 <= i < |cs| ==>
      (CollectAll(b, cs)[i].collected <==> cs[i].collected || RectsCollide(BoxOf(b), ItemBox(cs[i])))
    ensures Flips(b, cs) == NewlyCollected(cs, CollectAll(b, cs))
  {
    if cs != [] {
      var init := cs[..|cs| - 1];
      CollectAllCounts(b, init);
      var after := CollectAll(b, cs);
      assert after[..|after| - 1] == CollectAll(b, init);
    }
  }

  // ---------------------------------------------------------------- step 9: spikes

  /** Whether the player touches any spike. */
  predicate HitsSpike(b: Body, spikes: seq<Rect>)
  {
    exists i :: 0 <= i < |spikes| && RectsCollide(BoxOf(b), spikes[i])
  }

  /** resetPlayer, which also serves for a spike hit: back to the start, at rest. */
  function Respawn(b: Body): (b': Body)
    ensures b'.x == 100.0 && b'.y == 350.0 && b'.vx == 0.0 && b'.vy == 0.0
    ensures b'.width == b.width && b'.height == b.height && b'.onGround == b.onGround
  {
    b.(x := SPAWN_X, y := SPAWN_Y, vx := 0.0, vy := 0.0)
  }

  // ---------------------------------------------------------------- step 11: clamping

  /** The off-screen guard: first the left edge, then the right edge. */
  function Clamp(b: Body): (b': Body)
  {
    var b1 := if b.x < 0.0 then b.(x := 0.0) else b;
    if b1.x + b1.width > LEVEL_WIDTH then b1.(x := LEVEL_WIDTH - b1.width) else b1
  }

  /** Clamping keeps a player no wider than the level inside it, and moves nobody already inside. */
  lemma ClampKeepsInLevel(b: Body)
    requires 0.0 <= b.width <= LEVEL_WIDTH
    ensures 0.0 <= Clamp(b).x && Clamp(b).x + Clamp(b).width <= LEVEL_WIDTH
    ensures 0.0 <= b.x && b.x + b.width <= LEVEL_WIDTH ==> Clamp(b) == b
    ensures Clamp(b).y == b.y && Clamp(b).width == b.width && Clamp(b).height == b.height
  {
  }

  /**
   * The right-edge guard never moves the player. update clamps only after the
   * level-end test, so the player it sees has either been respawned at x = 100
   * or has its right edge left of levelEndX; in both cases only the left-edge
   * guard can act.
   */
  lemma RightGuardNeverFires(b: Body)
    requires 0.0 <= b.width <= LEVEL_END_X
    ensures b.x + b.width < LEVEL_END_X ==> Clamp(b) == (if b.x < 0.0 then b.(x := 0.0) else b)
    ensures Clamp(Respawn(b)) == Respawn(b)
  {
  }

  // ---------------------------------------------------------------- the frame up to the level-end test

  datatype Frame = Frame(player: Body, moving: seq<MovingPlatform>, collectibles: seq<Collectible>, gained: nat)

  /** Steps 1 to 9 of update, before the level-end test and the clamp. */
  function Advance(b: Body, k: Keys, platforms: seq<Rect>, boxes: seq<Rect>, moving: seq<MovingPlatform>,
                   collectibles: seq<Collectible>, spikes: seq<Rect>): (f: Frame)
    ensures f.player.width == b.width && f.player.height == b.height
    ensures |f.moving| == |moving| && |f.collectibles| == |collectibles|
  {
    var b1 := Steer(b, k);
    var b2 := LandAll(b1.(onGround := false), platforms);
    var b3 := PushOutAll(b2, boxes);
    var ms := OscillateAll(moving);
    var b4 := RideAll(b3, ms);
    var b5 := if HitsSpike(b4, spikes) then Respawn(b4) else b4;
    Frame(b5, ms, CollectAll(b4, collectibles), Flips(b4, collectibles))
  }

  /** Advance, read off from the bodies after steps 6 and 7. */
  lemma AdvanceIs(b: Body, k: Keys, platforms: seq<Rect>, boxes: seq<Rect>, moving: seq<MovingPlatform>,
                  collectibles: seq<Collectible>, spikes: seq<Rect>, b3: Body, ms: seq<MovingPlatform>, b4: Body,
                  p: Body, cs: seq<Collectible>, g: nat)
    requires b3 == PushOutAll(LandAll(Steer(b, k).(onGround := false), platforms), boxes)
    requires ms == OscillateAll(moving) && b4 == RideAll(b3, ms)
    requires p == (if HitsSpike(b4, spikes) then Respawn(b4) else b4)
    requires cs == CollectAll(b4, collectibles) && g == Flips(b4, collectibles)
    ensures Frame(p, ms, cs, g) == Advance(b, k, platforms, boxes, moving, collectibles, spikes)
  {
  }

  // ---------------------------------------------------------------- sanity checks of the frame

  const AtSpawn := Body(SPAWN_X, SPAWN_Y, 40.0, 50.0, 0.0, 0.0, false)
  const NoKeys := Keys(false, false, false, false, false, false, false)

  /** A player at rest in the air falls; right moves right; left moves left; a grounded jump goes up. */
  lemma FrameSanity()
    ensures Steer(AtSpawn, NoKeys).y > AtSpawn.y
    ensures Steer(AtSpawn, NoKeys.(arrowRight := true)).x > AtSpawn.x
    ensures Steer(AtSpawn, NoKeys.(arrowLeft := true)).x < AtSpawn.x
    ensures Steer(AtSpawn.(onGround := true), NoKeys.(space := true)).vy < 0.0
  {
  }

  /** Falling at 5 from ten pixels above the ground onto an 800-wide floor lands the player on it. */
  lemma LandsOnFloor()
    ensures var b := LandAll(Steer(AtSpawn.(y := GROUND_Y - 10.0, vy := 5.0), NoKeys).(onGround := false),
                             [Rect(0.0, GROUND_Y, 800.0, 50.0)]);
      b.onGround && b.y == GROUND_Y - b.height
  {
  }
}

=== FILE: relay.dfy ===
/**
 * The relay server's per-connection handler (server.js, the `connection`
 * callback): each socket remembers the player id its `join` named, and the
 * `message`, `close` and `error` events are routed to the one shared
 * GameSession.
 *
 * Decoding is out of scope: a message arrives already parsed into `Inbound`
 * (or as `Unparsable` when JSON.parse would throw).
 */
module Relay {
  import opened Wrappers
  import Session

  type PlayerId = Session.PlayerId

  /** A client message as the dispatch sees it: its kind and the fields that kind reads. */
  datatype Inbound =
    | JoinRequest(playerId: PlayerId)
    | UpdateRequest(position: Option<Session.Position>)
    | CollectRequest(collectibleId: Option<string>)
    | PingRequest
    | OtherKind(kind: string)
    | Unparsable

  /** JavaScript truthiness of an optional string: present and not empty. */
  predicate Truthy(s: Option<string>)
  {
    s.Some? && s.value != ""
  }

  /** Which session operation a message reaches. */
  datatype Route =
    | Joins(id: PlayerId)
    | Moves(id: PlayerId, pos: Session.Position)
    | Collects(id: PlayerId, collectibleId: string)
    | Pongs
    | Dropped

  /**
   * The switch on `message.type`: `join` always reaches addPlayer; an update
   * or a collection reaches the session only when this connection has joined
   * under a truthy id and the message carries the field it needs; `ping` is
   * answered; anything else is dropped.
   */
  function RouteOf(m: Inbound, playerId: Option<PlayerId>): (r: Route)
    ensures r.Joins? <==> m.JoinRequest?
    ensures r.Joins? ==> r.id == m.playerId
    ensures r.Moves? <==> m.UpdateRequest? && Truthy(playerId) && m.position.Some?
    ensures r.Moves? ==> r.id == playerId.value && m.position == Some(r.pos)
    ensures r.Collects? <==> m.CollectRequest? && Truthy(playerId) && Truthy(m.collectibleId)
    ensures r.Collects? ==> r.id == playerId.value && m.collectibleId == Some(r.collectibleId)
    ensures r.Pongs? <==> m.PingRequest?
  {
    match m
    case JoinRequest(id) => Joins(id)
    case UpdateRequest(position) =>
      if Truthy(playerId) && position.Some? then Moves(playerId.value, position.value) else Dropped
    case CollectRequest(cid) =>
      if Truthy(playerId) && Truthy(cid) then Collects(playerId.value, cid.value) else Dropped
    case PingRequest => Pongs
    case OtherKind(_) => Dropped
    case Unparsable => Dropped
  }

  class Connection {
    const ws: Session.Socket
    const session: Session.GameSession
    /** The id named by the last `join` on this socket, if any. */
    var playerId: Option<PlayerId>

    constructor (ws: Session.Socket, session: Session.GameSession)
      ensures this.ws == ws && this.session == session && playerId == None
    {
      this.ws := ws;
      this.session := session;
      playerId := None;
    }

    /** The `message` event. */
    method OnMessage(m: Inbound, now: int)
      requires session.Valid()
      modifies this, session`order, session`players, session`hostId, session`itemOrder, session`collectibles, session.wire
      ensures session.Valid()
      ensures playerId == if m.JoinRequest? then Some(m.playerId) else old(playerId)
      ensures match RouteOf(m, old(playerId))
        case Joins(id) =>
          && session.State() == Session.Join(old(session.State()), id, ws, now)
          && session.wire.sent == old(session.wire.sent) + Session.JoinSends(old(session.State()), id, ws, now, session.Items())
        case Moves(id, pos) =>
          && session.State() == Session.Touch(old(session.State()), id, pos, now)
          && session.wire.sent == old(session.wire.sent)
               + (if id in old(session.players)
                  then Session.Fanout(session.order, session.players, Session.PlayerUpdate(id, pos), Some(id))
                  else [])
        case Collects(id, cid) =>
          && session.State() == old(session.State())
          && session.collectibles == old(session.collectibles)[cid := Session.Entry(cid, true, id, now)]
          && session.wire.sent == old(session.wire.sent)
               + Session.Fanout(session.order, session.players, Session.ItemCollected(id, cid), None)
        case Pongs =>
          && session.State() == old(session.State())
          && session.wire.sent == old(session.wire.sent) + (if ws.open then [Session.Delivery(ws.conn, Session.Pong)] else [])
        case Dropped =>
          && session.State() == old(session.State())
          && session.wire.sent == old(session.wire.sent)
      ensures !RouteOf(m, old(playerId)).Collects? ==>
        session.collectibles == old(session.collectibles) && session.itemOrder == old(session.itemOrder)
    {
      match m
      case JoinRequest(id) =>
        playerId := Some(id);
        session.AddPlayer(id, ws, now);
      case UpdateRequest(position) =>
        if Truthy(playerId) && position.Some? {
          session.UpdatePlayerPosition(playerId.value, position.value, now);
        }
      case CollectRequest(cid) =>
        if Truthy(playerId) && Truthy(cid) {
          session.CollectItem(playerId.value, cid.value, now);
        }
      case PingRequest =>
        session.Send(ws, Session.Pong);
      case OtherKind(_) =>
      case Unparsable =>
    }

    /** The `close` event: a joined connection's player leaves the session. */
    method OnClose()
      requires session.Valid()
      modifies session`order, session`players, session`hostId, session.wire
      ensures session.Valid()
      ensures Truthy(playerId) ==>
        && session.State() == Session.Leave(old(session.State()), playerId.value)
        && session.wire.sent == old(session.wire.sent) + Session.LeaveSends(old(session.State()), playerId.value)
      ensures !Truthy(playerId) ==>
        session.State() == old(session.State()) && session.wire.sent == old(session.wire.sent)
    {
      if Truthy(playerId) {
        session.RemovePlayer(playerId.value);
      }
    }

    /** The `error` event does what `close` does. */
    method OnError()
      requires session.Valid()
      modifies session`order, session`players, session`hostId, session.wire
      ensures session.Valid()
      ensures Truthy(playerId) ==>
        && session.State() == Session.Leave(old(session.State()), playerId.value)
        && session.wire.sent == old(session.wire.sent) + Session.LeaveSends(old(session.State()), playerId.value)
      ensures !Truthy(playerId) ==>
        session.State() == old(session.State()) && session.wire.sent == old(session.wire.sent)
    {
      if Truthy(playerId) {
        session.RemovePlayer(playerId.value);
      }
    }
  }
}

=== FILE: session.dfy ===
/**
 * The relay server's session bookkeeping (server.js, class GameSession).
 *
 * The session keeps the players in join order (a JavaScript Map iterates in
 * insertion order), the collectibles that have been reported collected, and
 * the id of the host. Every handler runs to completion on one event loop, so
 * each operation is one sequential method call. Messages the server writes to
 * client sockets are appended to the log of a `Wire`, which stands for all
 * the sockets together.
 *
 * The pure value `Roster` and the functions Join, Leave, Touch and Sweep
 * specify what the methods of GameSession do to the players; the lemmas about
 * those functions state the promises of the source.
 */
module Session {
  import opened Wrappers

  type PlayerId = string
  type ConnId = nat

  /** A player idle for strictly more than this many milliseconds is evicted. */
  const INACTIVITY_TIMEOUT: int := 30000

  /** A client socket: which connection it is, and whether its readyState is OPEN. */
  datatype Socket = Socket(conn: ConnId, open: bool)

  /** The body fields the server mirrors for each player. */
  datatype Position = Position(x: real, y: real, width: real, height: real, growLevel: real)

  /** Where a joining player is put: (100, 350), 40 by 50, growLevel 0. */
  const SPAWN := Position(100.0, 350.0, 40.0, 50.0, 0.0)

  datatype Player = Player(id: PlayerId, ws: Socket, pos: Position, isHost: bool, lastSeen: int)

  datatype Entry = Entry(id: string, collected: bool, collectedBy: PlayerId, timestamp: int)

  /** One player as listed in a `gameState` snapshot (the socket is not sent). */
  datatype PlayerView = PlayerView(id: PlayerId, pos: Position, isHost: bool)

  /** Messages the server sends to clients. */
  datatype Message =
    | PlayerJoined(playerId: PlayerId, isHost: bool)
    | PlayerLeft(playerId: PlayerId)
    | PlayerUpdate(playerId: PlayerId, position: Position)
    | ItemCollected(playerId: PlayerId, collectibleId: string)
    | GameState(players: seq<PlayerView>, collectibles: seq<Entry>)
    | Pong

  /** A message written to the socket of connection `to`. */
  datatype Delivery = Delivery(to: ConnId, msg: Message)

  /** The players of a session: join order, the records, and the host id. */
  datatype Roster = Roster(order: seq<PlayerId>, players: map<PlayerId, Player>, hostId: Option<PlayerId>)

  lemma AppendAssoc<T>(a: seq<T>, b: seq<T>, c: seq<T>)
    ensures (a + b) + c == a + (b + c)
  {
  }

  ghost predicate Distinct<T>(s: seq<T>)
  {
    forall i, j :: 0 <= i < j < |s| ==> s[i] != s[j]
  }

  /** The join order lists each player exactly once, and each record carries its own key. */
  ghost predicate WellFormed(r: Roster)
  {
    && Distinct(r.order)
    && (forall id :: id in r.players <==> id in r.order)
    && (forall id :: id in r.players ==> r.players[id].id == id)
  }

  /**
   * The host invariant the code maintains: a player marked host is the one
   * `hostId` names (so at most one player is marked), and while anybody is in
   * the session `hostId` names one of them.
   */
  ghost predicate HostConsistent(r: Roster)
  {
    && (forall id :: id in r.players && r.players[id].isHost ==> r.hostId == Some(id))
    && (r.players != map[] ==> r.hostId.Some? && r.hostId.value in r.players)
  }

  /** Whether a player has been silent for longer than the inactivity timeout at time `now`. */
  predicate Idle(p: Player, now: int)
  {
    now - p.lastSeen > INACTIVITY_TIMEOUT
  }

  /** `s` with every occurrence of `x` removed, other elements in their order. */
  function Without(s: seq<PlayerId>, x: PlayerId): (r: seq<PlayerId>)
    ensures forall y :: y in r <==> y in s && y != x
    ensures Distinct(s) ==> Distinct(r)
    ensures |r| <= |s|
  {
    if s == [] then []
    else
      var rest := Without(s[1..], x);
      assert Distinct(s) ==> Distinct(s[1..]) && s[0] !in s[1..];
      if s[0] == x then rest else [s[0]] + rest
  }

  /** Deleting an id that is not in the join order leaves the order as it was. */
  lemma {:induction false} WithoutAbsent(s: seq<PlayerId>, x: PlayerId)
    requires x !in s
    ensures Without(s, x) == s
  {
    if s != [] {
      WithoutAbsent(s[1..], x);
      assert s == [s[0]] + s[1..];
    }
  }

  /** Deleting a present id from a duplicate-free join order cuts out just its slot: the others keep their order. */
  lemma {:induction false} WithoutSplices(s: seq<PlayerId>, x: PlayerId, k: nat)
    requires Distinct(s) && k < |s| && s[k] == x
    ensures Without(s, x) == s[..k] + s[k + 1..]
  {
    var t := s[1..];
    assert Distinct(t) by {
      forall i, j | 0 <= i < j < |t| ensures t[i] != t[j] {
        assert t[i] == s[i + 1] && t[j] == s[j + 1];
      }
    }
    if k == 0 {
      assert x !in t by {
        forall i | 0 <= i < |t| ensures t[i] != x {
          assert t[i] == s[i + 1];
        }
      }
      WithoutAbsent(t, x);
      assert Without(s, x) == t;
      assert s[..0] + s[1..] == t;
    } else {
      assert s[0] != x by { assert s[0] != s[k]; }
      assert t[k - 1] == x;
      WithoutSplices(t, x, k - 1);
      assert Without(s, x) == [s[0]] + Without(t, x);
      assert s[..k] == [s[0]] + t[..k - 1];
      assert s[k + 1..] == t[k..];
    }
  }

  /** The first element of `Without(s, x)` is the first element of `s` other than `x`. */
  lemma {:induction false} WithoutHead(s: seq<PlayerId>, x: PlayerId)
    requires Without(s, x) != []
    ensures exists k :: 0 <= k < |s| && s[k] == Without(s, x)[0] && forall j :: 0 <= j < k ==> s[j] == x
  {
    if s[0] == x {
      WithoutHead(s[1..], x);
      var k :| 0 <= k < |s[1..]| && s[1..][k] == Without(s[1..], x)[0] && forall j :: 0 <= j < k ==> s[1..][j] == x;
      assert s[k + 1] == Without(s, x)[0];
      assert forall j :: 0 <= j < k + 1 ==> s[j] == x by {
        forall j | 0 <= j < k + 1 ensures s[j] == x {
          if j > 0 { assert s[j] == s[1..][j - 1]; }
        }
      }
    } else {
      assert s[0] == Without(s, x)[0];
    }
  }

  // ---------------------------------------------------------------- joining

  /**
   * addPlayer: the joiner is host exactly when the session is empty; the
   * record is (re)written at the spawn position; a new id goes to the end of
   * the join order, an existing id keeps its place (Map.set semantics).
   */
  function Join(r: Roster, id: PlayerId, ws: Socket, now: int): (r': Roster)
    ensures WellFormed(r) ==> WellFormed(r')
  {
    var isHost := |r.players| == 0;
    Roster(
      if id in r.players then r.order else r.order + [id],
      r.players[id := Player(id, ws, SPAWN, isHost, now)],
      if isHost then Some(id) else r.hostId)
  }

  lemma JoinElectsFirstJoiner(r: Roster, id: PlayerId, ws: Socket, now: int)
    ensures var r' := Join(r, id, ws, now);
      r.players == map[] ==> r'.hostId == Some(id) && r'.players[id].isHost
    ensures var r' := Join(r, id, ws, now);
      r.players != map[] ==> r'.hostId == r.hostId && !r'.players[id].isHost
  {
    if r.players != map[] {
      var k :| k in r.players;
      assert |r.players| > 0 by { assert k in r.players.Keys; }
    }
  }

  lemma JoinStoresSpawnRecord(r: Roster, id: PlayerId, ws: Socket, now: int)
    ensures var r' := Join(r, id, ws, now);
      && r'.players.Keys == r.players.Keys + {id}
      && r'.players[id].pos == Position(100.0, 350.0, 40.0, 50.0, 0.0)
      && r'.players[id].lastSeen == now && r'.players[id].ws == ws
      && (forall q :: q in r.players && q != id ==> r'.players[q] == r.players[q])
  {
  }

  lemma JoinKeepsJoinOrder(r: Roster, id: PlayerId, ws: Socket, now: int)
    ensures id in r.players ==> Join(r, id, ws, now).order == r.order
    ensures id !in r.players ==> Join(r, id, ws, now).order == r.order + [id]
  {
  }

  lemma {:induction false} JoinKeepsHostConsistent(r: Roster, id: PlayerId, ws: Socket, now: int)
    requires WellFormed(r) && HostConsistent(r)
    ensures HostConsistent(Join(r, id, ws, now))
  {
    var r' := Join(r, id, ws, now);
    JoinElectsFirstJoiner(r, id, ws, now);
    forall q | q in r'.players && r'.players[q].isHost ensures r'.hostId == Some(q) {
      if q != id {
        assert r.players[q].isHost;
      }
    }
  }

  /**
   * What addPlayer writes: `playerJoined` to every player with an open socket,
   * the joiner included, then the `gameState` snapshot to the joiner.
   */
  function JoinSends(r: Roster, id: PlayerId, ws: Socket, now: int, items: seq<Entry>): (out: seq<Delivery>)
    requires WellFormed(r)
  {
    var r' := Join(r, id, ws, now);
    Fanout(r'.order, r'.players, PlayerJoined(id, |r.players| == 0), None)
      + (if ws.open then [Delivery(ws.conn, GameState(Views(r'.order, r'.players), items))] else [])
  }

  /**
   * addPlayer announces the join to every player whose socket is open, the
   * joiner included, and the last thing it writes is the snapshot for the
   * joiner, taken after the join.
   */
  lemma JoinAnnouncesThenSnapshots(r: Roster, id: PlayerId, ws: Socket, now: int, items: seq<Entry>, c: ConnId)
    requires WellFormed(r)
    ensures var r' := Join(r, id, ws, now);
      var out := JoinSends(r, id, ws, now, items);
      && (Delivery(c, PlayerJoined(id, |r.players| == 0)) in out <==>
            exists q :: q in r'.players && r'.players[q].ws == Socket(c, true))
      && (ws.open ==> out[|out| - 1] == Delivery(ws.conn, GameState(Views(r'.order, r'.players), items)))
      && multiset(out)[Delivery(c, PlayerJoined(id, |r.players| == 0))] == |ListenersOn(r'.order, r'.players, None, c)|
  {
    var r' := Join(r, id, ws, now);
    var msg := PlayerJoined(id, |r.players| == 0);
    FanoutReaches(r'.order, r'.players, msg, None, c);
    FanoutCounts(r'.order, r'.players, msg, None, c);
    var snap := if ws.open then [Delivery(ws.conn, GameState(Views(r'.order, r'.players), items))] else [];
    assert multiset(snap)[Delivery(c, msg)] == 0;
    if exists q :: q in r'.players && r'.players[q].ws == Socket(c, true) {
      var q :| q in r'.players && r'.players[q].ws == Socket(c, true);
      assert q in r'.order;
    }
  }

  // ---------------------------------------------------------------- leaving

  lemma {:induction false} RemainingNonEmpty(r: Roster, id: PlayerId)
    requires WellFormed(r) && id in r.players
    requires |r.players - {id}| > 0
    ensures Without(r.order, id) != []
  {
    var rest := r.players - {id};
    assert rest.Keys != {} by {
      assert |rest| == |rest.Keys|;
    }
    var k :| k in rest.Keys;
    assert k in Without(r.order, id);
  }

  /**
   * removePlayer: nothing happens for an unknown id. Otherwise the record is
   * deleted first; if it was the host and anybody remains, the first
   * remaining player in join order is marked host and becomes `hostId`. When
   * nobody remains `hostId` is left as it was.
   */
  function Leave(r: Roster, id: PlayerId): (r': Roster)
    requires WellFormed(r)
    ensures WellFormed(r')
  {
    if id !in r.players then r
    else
      var order := Without(r.order, id);
      var players := r.players - {id};
      if r.hostId == Some(id) && |players| > 0 then
        RemainingNonEmpty(r, id);
        var h := order[0];
        Roster(order, players[h := players[h].(isHost := true)], Some(h))
      else
        Roster(order, players, r.hostId)
  }

  lemma LeaveUnknownIsNoOp(r: Roster, id: PlayerId)
    requires WellFormed(r) && id !in r.players
    ensures Leave(r, id) == r && LeaveSends(r, id) == []
  {
  }

  lemma LeaveRemovesOnlyThePlayer(r: Roster, id: PlayerId)
    requires WellFormed(r) && id in r.players
    ensures var r' := Leave(r, id);
      && r'.players.Keys == r.players.Keys - {id}
      && r'.order == Without(r.order, id)
      && (forall q :: q in r'.players ==> r'.players[q] == r.players[q].(isHost := r'.players[q].isHost))
  {
  }

  /**
   * A socket's `error` and `close` both remove its player; the second removal
   * finds nobody and changes and sends nothing.
   */
  lemma LeaveTwiceIsLeaveOnce(r: Roster, id: PlayerId)
    requires WellFormed(r)
    ensures Leave(Leave(r, id), id) == Leave(r, id)
    ensures LeaveSends(Leave(r, id), id) == []
  {
    if id in r.players {
      LeaveRemovesOnlyThePlayer(r, id);
    }
  }

  /** Host hand-over: the first player after the departing host in join order becomes host. */
  lemma {:induction false} LeaveHandsHostToNextJoiner(r: Roster, id: PlayerId)
    requires WellFormed(r) && id in r.players && r.hostId == Some(id)
    requires |r.players| > 1
    ensures var r' := Leave(r, id);
      && r'.hostId.Some? && r'.hostId.value in r'.players && r'.players[r'.hostId.value].isHost
      && exists k :: 0 <= k < |r.order| && r.order[k] == r'.hostId.value
                     && forall j :: 0 <= j < k ==> r.order[j] == id
  {
    var players := r.players - {id};
    assert |players| > 0 by {
      assert players.Keys == r.players.Keys - {id};
      assert |r.players.Keys| > 1;
    }
    RemainingNonEmpty(r, id);
    WithoutHead(r.order, id);
  }

  lemma LeaveOfLastPlayerKeepsHostId(r: Roster, id: PlayerId)
    requires WellFormed(r) && r.players.Keys == {id}
    ensures Leave(r, id).players == map[] && Leave(r, id).hostId == r.hostId
  {
    var players := r.players - {id};
    assert players.Keys == {};
    assert |players| == 0;
  }

  lemma {:induction false} LeaveKeepsHostConsistent(r: Roster, id: PlayerId)
    requires WellFormed(r) && HostConsistent(r)
    ensures HostConsistent(Leave(r, id))
  {
    if id in r.players {
      var r' := Leave(r, id);
      var players := r.players - {id};
      if r.hostId == Some(id) && |players| > 0 {
        RemainingNonEmpty(r, id);
      } else if r.hostId == Some(id) {
        assert players.Keys == {} by {
          assert |players| == |players.Keys|;
        }
        assert r'.players == map[];
      } else {
        forall q | q in r'.players && r'.players[q].isHost ensures r'.hostId == Some(q) {
          assert r.players[q].isHost;
        }
      }
    }
  }

  // ---------------------------------------------------------------- position updates

  /** updatePlayerPosition: an unknown id changes nothing; otherwise the mirrored body and lastSeen are overwritten. */
  function Touch(r: Roster, id: PlayerId, pos: Position, now: int): (r': Roster)
  {
    if id !in r.players then r
    else r.(players := r.players[id := r.players[id].(pos := pos, lastSeen := now)])
  }

  lemma TouchOverwritesOnlyMirroredFields(r: Roster, id: PlayerId, pos: Position, now: int)
    requires WellFormed(r) && HostConsistent(r)
    ensures id !in r.players ==> Touch(r, id, pos, now) == r
    ensures id in r.players ==>
      var r' := Touch(r, id, pos, now);
      && r'.order == r.order && r'.hostId == r.hostId && r'.players.Keys == r.players.Keys
      && r'.players[id] == Player(id, r.players[id].ws, pos, r.players[id].isHost, now)
      && (forall q :: q in r.players && q != id ==> r'.players[q] == r.players[q])
    ensures WellFormed(Touch(r, id, pos, now)) && HostConsistent(Touch(r, id, pos, now))
  {
  }

  // ---------------------------------------------------------------- fan-out

  /**
   * broadcast: in join order, each player of `ids` other than `exclude`
   * whose socket is OPEN receives `msg`.
   */
  function Fanout(ids: seq<PlayerId>, players: map<PlayerId, Player>, msg: Message, exclude: Option<PlayerId>): (out: seq<Delivery>)
    requires forall id :: id in ids ==> id in players
    decreases |ids|
  {
    if ids == [] then []
    else
      var last := ids[|ids| - 1];
      Fanout(ids[..|ids| - 1], players, msg, exclude) + Reach(last, players[last].ws, msg, exclude)
  }

  /** What one player of a broadcast receives: the message, unless it is the excluded one or its socket is not OPEN. */
  function Reach(id: PlayerId, ws: Socket, msg: Message, exclude: Option<PlayerId>): (out: seq<Delivery>)
  {
    if Some(id) != exclude && ws.open then [Delivery(ws.conn, msg)] else []
  }

  /** A broadcast over one more id of the join order is the shorter broadcast and that player's delivery. */
  lemma FanoutStep(ids: seq<PlayerId>, players: map<PlayerId, Player>, msg: Message, exclude: Option<PlayerId>, i: nat)
    requires forall id :: id in ids ==> id in players
    requires i < |ids|
    ensures Fanout(ids[..i + 1], players, msg, exclude) == Fanout(ids[..i], players, msg, exclude) + Reach(ids[i], players[ids[i]].ws, msg, exclude)
  {
    assert ids[..i + 1][..i] == ids[..i];
  }

  /** A broadcast reaches connection `c` exactly when some listed, non-excluded player has an open socket on `c`. */
  lemma {:induction false} FanoutReaches(ids: seq<PlayerId>, players: map<PlayerId, Player>, msg: Message, exclude: Option<PlayerId>, c: ConnId)
    requires forall id :: id in ids ==> id in players
    ensures Delivery(c, msg) in Fanout(ids, players, msg, exclude) <==>
      exists id :: id in ids && Some(id) != exclude && players[id].ws == Socket(c, true)
  {
    if ids != [] {
      var init := ids[..|ids| - 1];
      var last := ids[|ids| - 1];
      assert ids == init + [last];
      FanoutReaches(init, players, msg, exclude, c);
      var ws := players[last].ws;
      var tail := if Some(last) != exclude && ws.open then [Delivery(ws.conn, msg)] else [];
      assert Fanout(ids, players, msg, exclude) == Fanout(init, players, msg, exclude) + tail;
      assert Delivery(c, msg) in tail <==> Some(last) != exclude && ws == Socket(c, true);
      if exists id :: id in ids && Some(id) != exclude && players[id].ws == Socket(c, true) {
        var id :| id in ids && Some(id) != exclude && players[id].ws == Socket(c, true);
        if id != last {
          assert id in init;
        }
      }
    }
  }

  /** The listed, non-excluded players with an open socket on connection `c`, in list order. */
  function ListenersOn(ids: seq<PlayerId>, players: map<PlayerId, Player>, exclude: Option<PlayerId>, c: ConnId): (ls: seq<PlayerId>)
    requires forall id :: id in ids ==> id in players
    ensures forall id :: id in ls ==> id in ids && Some(id) != exclude && players[id].ws == Socket(c, true)
    decreases |ids|
  {
    if ids == [] then []
    else
      var init := ids[..|ids| - 1];
      var last := ids[|ids| - 1];
      assert forall id :: id in init ==> id in ids;
      ListenersOn(init, players, exclude, c)
        + (if Some(last) != exclude && players[last].ws == Socket(c, true) then [last] else [])
  }

  /** A broadcast writes to connection `c` once per listed, non-excluded player with an open socket on `c`. */
  lemma {:induction false} FanoutCounts(ids: seq<PlayerId>, players: map<PlayerId, Player>, msg: Message, exclude: Option<PlayerId>, c: ConnId)
    requires forall id :: id in ids ==> id in players
    ensures multiset(Fanout(ids, players, msg, exclude))[Delivery(c, msg)] == |ListenersOn(ids, players, exclude, c)|
  {
    if ids != [] {
      var init := ids[..|ids| - 1];
      var last := ids[|ids| - 1];
      assert forall id :: id in init ==> id in ids;
      FanoutCounts(init, players, msg, exclude, c);
      var reach := Reach(last, players[last].ws, msg, exclude);
      assert multiset(Fanout(ids, players, msg, exclude)) == multiset(Fanout(init, players, msg, exclude)) + multiset(reach);
      assert multiset(reach)[Delivery(c, msg)] == if Some(last) != exclude && players[last].ws == Socket(c, true) then 1 else 0;
    }
  }

  /** Every delivery of a broadcast carries the broadcast message. */
  lemma {:induction false} FanoutCarries(ids: seq<PlayerId>, players: map<PlayerId, Player>, msg: Message, exclude: Option<PlayerId>)
    requires forall id :: id in ids ==> id in players
    ensures forall d :: d in Fanout(ids, players, msg, exclude) ==> d.msg == msg
  {
    if ids != [] {
      FanoutCarries(ids[..|ids| - 1], players, msg, exclude);
    }
  }

  /** The `playerLeft` broadcast goes only to players still in the session. */
  function LeaveSends(r: Roster, id: PlayerId): (out: seq<Delivery>)
    requires WellFormed(r)
  {
    if id !in r.players then []
    else
      var r' := Leave(r, id);
      Fanout(r'.order, r'.players, PlayerLeft(id), None)
  }

  lemma LeaveNotifiesOnlyRemaining(r: Roster, id: PlayerId, c: ConnId)
    requires WellFormed(r) && id in r.players
    ensures Delivery(c, PlayerLeft(id)) in LeaveSends(r, id) <==>
      exists q :: q in r.players && q != id && r.players[q].ws == Socket(c, true)
  {
    var r' := Leave(r, id);
    LeaveRemovesOnlyThePlayer(r, id);
    FanoutReaches(r'.order, r'.players, PlayerLeft(id), None, c);
    if exists q :: q in r.players && q != id && r.players[q].ws == Socket(c, true) {
      var q :| q in r.players && q != id && r.players[q].ws == Socket(c, true);
      assert q in r'.players && r'.players[q].ws == r.players[q].ws;
      assert q in r'.order;
    }
    if exists q :: q in r'.order && Some(q) != None && r'.players[q].ws == Socket(c, true) {
      var q :| q in r'.order && Some(q) != None && r'.players[q].ws == Socket(c, true);
      assert q in r'.players && r'.players[q].ws == r.players[q].ws;
    }
  }

  /** The players of `ids` as a `gameState` snapshot lists them, in the same order. */
  function Views(ids: seq<PlayerId>, players: map<PlayerId, Player>): (vs: seq<PlayerView>)
    requires forall id :: id in ids ==> id in players
  {
    if ids == [] then []
    else
      var p := players[ids[0]];
      [PlayerView(p.id, p.pos, p.isHost)] + Views(ids[1..], players)
  }

  /** The snapshot lists one view per id, in order, each showing that player's mirrored body and host flag. */
  lemma {:induction false} ViewsMirrorPlayers(ids: seq<PlayerId>, players: map<PlayerId, Player>)
    requires forall id :: id in ids ==> id in players && players[id].id == id
    ensures |Views(ids, players)| == |ids|
    ensures forall k :: 0 <= k < |ids| ==>
      Views(ids, players)[k] == PlayerView(ids[k], players[ids[k]].pos, players[ids[k]].isHost)
  {
    if ids != [] {
      ViewsMirrorPlayers(ids[1..], players);
      forall k | 0 <= k < |ids|
        ensures Views(ids, players)[k] == PlayerView(ids[k], players[ids[k]].pos, players[ids[k]].isHost)
      {
        if k > 0 {
          assert ids[k] == ids[1..][k - 1];
        }
      }
    }
  }

  /** The session after open sockets `c1` and `c2` join as `a` and then `b`. */
  function TwoJoined(a: PlayerId, c1: ConnId, b: PlayerId, c2: ConnId): (r: Roster)
  {
    Join(Join(Roster([], map[], None), a, Socket(c1, true), 0), b, Socket(c2, true), 10)
  }

  /**
   * Two sockets join as `a` and then `b`: only the first is host, join order
   * is kept, and each record holds its own socket.
   */
  lemma TwoPlayersJoin(a: PlayerId, c1: ConnId, b: PlayerId, c2: ConnId)
    requires a != b
    ensures var r := TwoJoined(a, c1, b, c2);
      && r.order == [a, b] && r.hostId == Some(a)
      && r.players.Keys == {a, b}
      && r.players[a].isHost && !r.players[b].isHost
      && r.players[a].ws == Socket(c1, true) && r.players[b].ws == Socket(c2, true)
  {
    var r1 := Join(Roster([], map[], None), a, Socket(c1, true), 0);
    assert r1.players.Keys == {a};
  }

  /** Each joiner sees its own `playerJoined`, and the first also sees the second's. */
  lemma TwoPlayersSeeJoins(a: PlayerId, c1: ConnId, b: PlayerId, c2: ConnId, items: seq<Entry>)
    requires a != b
    ensures
      var r0 := Roster([], map[], None);
      var r1 := Join(r0, a, Socket(c1, true), 0);
      var joins := JoinSends(r0, a, Socket(c1, true), 0, items) + JoinSends(r1, b, Socket(c2, true), 10, items);
      && Delivery(c1, PlayerJoined(a, true)) in joins
      && Delivery(c2, PlayerJoined(b, false)) in joins
      && Delivery(c1, PlayerJoined(b, false)) in joins
  {
    var r0 := Roster([], map[], None);
    var r1 := Join(r0, a, Socket(c1, true), 0);
    var r2 := Join(r1, b, Socket(c2, true), 10);
    JoinAnnouncesThenSnapshots(r0, a, Socket(c1, true), 0, items, c1);
    assert r1.players[a].ws == Socket(c1, true);
    JoinAnnouncesThenSnapshots(r1, b, Socket(c2, true), 10, items, c1);
    assert r2.players[a].ws == Socket(c1, true);
    JoinAnnouncesThenSnapshots(r1, b, Socket(c2, true), 10, items, c2);
    assert r2.players[b].ws == Socket(c2, true);
  }

  /**
   * Why only "at most one host" holds: when the host `a` sends `join` again
   * while `b` is present, its record is rewritten unmarked, yet hostId still
   * names it, so nobody is marked host although the session is not empty.
   */
  lemma RejoinLeavesNoMarkedHost(a: PlayerId, c1: ConnId, b: PlayerId, c2: ConnId)
    requires a != b
    ensures var r := Join(TwoJoined(a, c1, b, c2), a, Socket(c1, true), 30);
      && r.players.Keys == {a, b} && r.hostId == Some(a)
      && forall q :: q in r.players ==> !r.players[q].isHost
  {
    TwoPlayersJoin(a, c1, b, c2);
    JoinElectsFirstJoiner(TwoJoined(a, c1, b, c2), a, Socket(c1, true), 30);
  }

  /** Then `b` reports a position: the update reaches `a` alone and is not echoed to `b`. */
  lemma UpdateIsNotEchoed(a: PlayerId, c1: ConnId, b: PlayerId, c2: ConnId, pos: Position)
    requires a != b
    ensures var r := Touch(TwoJoined(a, c1, b, c2), b, pos, 20);
      Fanout(r.order, r.players, PlayerUpdate(b, pos), Some(b)) == [Delivery(c1, PlayerUpdate(b, pos))]
  {
    TwoPlayersJoin(a, c1, b, c2);
    var r := Touch(TwoJoined(a, c1, b, c2), b, pos, 20);
    var msg := PlayerUpdate(b, pos);
    assert r.order == [a, b] && r.players[a].ws == Socket(c1, true);
    assert r.order[..1] == [a] && [a][..0] == [];
    assert Fanout([a], r.players, msg, Some(b)) == [Delivery(c1, msg)];
    assert Fanout([a, b], r.players, msg, Some(b)) == Fanout([a], r.players, msg, Some(b));
  }

  // ---------------------------------------------------------------- inactivity sweep

  datatype Outcome = Outcome(roster: Roster, sent: seq<Delivery>)

  /**
   * cleanupInactivePlayers: visit `ids` in order; a visited player still in
   * the session and idle at `now` is removed through Leave, with its
   * `playerLeft` broadcast.
   */
  function Sweep(r: Roster, ids: seq<PlayerId>, now: int): (o: Outcome)
    requires WellFormed(r)
    ensures WellFormed(o.roster)
    decreases |ids|
  {
    if ids == [] then Outcome(r, [])
    else
      var o := Sweep(r, ids[..|ids| - 1], now);
      var id := ids[|ids| - 1];
      if id in o.roster.players && Idle(o.roster.players[id], now)
      then Outcome(Leave(o.roster, id), o.sent + LeaveSends(o.roster, id))
      else o
  }

  /** One more visited id extends the sweep by at most one Leave. */
  lemma SweepStep(r: Roster, ids: seq<PlayerId>, i: nat, now: int)
    requires WellFormed(r) && i < |ids|
    ensures var o := Sweep(r, ids[..i], now);
      var id := ids[i];
      Sweep(r, ids[..i + 1], now) ==
        if id in o.roster.players && Idle(o.roster.players[id], now)
        then Outcome(Leave(o.roster, id), o.sent + LeaveSends(o.roster, id))
        else o
  {
    assert ids[..i + 1][..i] == ids[..i];
  }

  /** The sweep removes exactly the visited players that are idle, and keeps the others' records intact (host flag aside). */
  lemma {:induction false} SweepEvictsExactlyIdle(r: Roster, ids: seq<PlayerId>, now: int)
    requires WellFormed(r)
    ensures var r' := Sweep(r, ids, now).roster;
      forall id :: id in r'.players <==> id in r.players && !(id in ids && Idle(r.players[id], now))
    ensures var r' := Sweep(r, ids, now).roster;
      forall id :: id in r'.players ==> r'.players[id] == r.players[id].(isHost := r'.players[id].isHost)
    decreases |ids|
  {
    if ids != [] {
      var init := ids[..|ids| - 1];
      var last := ids[|ids| - 1];
      SweepEvictsExactlyIdle(r, init, now);
      var o := Sweep(r, init, now);
      assert forall id :: id in ids <==> id in init || id == last;
      if last in o.roster.players && Idle(o.roster.players[last], now) {
        LeaveRemovesOnlyThePlayer(o.roster, last);
      }
    }
  }

  lemma {:induction false} SweepKeepsHostConsistent(r: Roster, ids: seq<PlayerId>, now: int)
    requires WellFormed(r) && HostConsistent(r)
    ensures HostConsistent(Sweep(r, ids, now).roster)
    decreases |ids|
  {
    if ids != [] {
      SweepKeepsHostConsistent(r, ids[..|ids| - 1], now);
      LeaveKeepsHostConsistent(Sweep(r, ids[..|ids| - 1], now).roster, ids[|ids| - 1]);
    }
  }

  // ---------------------------------------------------------------- collectibles

  ghost predicate ItemsWellFormed(itemOrder: seq<string>, items: map<string, Entry>)
  {
    && Distinct(itemOrder)
    && (forall k :: k in items <==> k in itemOrder)
  }

  /** The collectibles as listed in a `gameState` snapshot, in insertion order. */
  function ItemList(keys: seq<string>, items: map<string, Entry>): (es: seq<Entry>)
    requires forall k :: k in keys ==> k in items
  {
    if keys == [] then [] else [items[keys[0]]] + ItemList(keys[1..], items)
  }

  /** The snapshot lists the entry of every key, in order. */
  lemma {:induction false} ItemListInOrder(keys: seq<string>, items: map<string, Entry>)
    requires forall k :: k in keys ==> k in items
    ensures |ItemList(keys, items)| == |keys|
    ensures forall i :: 0 <= i < |keys| ==> ItemList(keys, items)[i] == items[keys[i]]
  {
    if keys != [] {
      ItemListInOrder(keys[1..], items);
      forall i | 0 <= i < |keys| ensures ItemList(keys, items)[i] == items[keys[i]] {
        if i > 0 {
          assert keys[i] == keys[1..][i - 1];
        }
      }
    }
  }

  // ---------------------------------------------------------------- the session object

  /** Everything the server has written to client sockets so far, in order. */
  class Wire {
    var sent: seq<Delivery>

    constructor ()
      ensures sent == []
    {
      sent := [];
    }
  }

  class GameSession {
    var order: seq<PlayerId>
    var players: map<PlayerId, Player>
    var hostId: Option<PlayerId>
    /** Collectibles, with their Map insertion order. */
    var itemOrder: seq<string>
    var collectibles: map<string, Entry>
    var lastUpdate: int
    /** The client sockets, as seen from the server. */
    const wire: Wire

    function State(): (r: Roster)
      reads this
    {
      Roster(order, players, hostId)
    }

    ghost predicate Valid()
      reads this
    {
      WellFormed(State()) && HostConsistent(State()) && ItemsWellFormed(itemOrder, collectibles)
    }

    function Items(): (es: seq<Entry>)
      reads this
      requires ItemsWellFormed(itemOrder, collectibles)
    {
      ItemList(itemOrder, collectibles)
    }

    constructor (now: int)
      ensures Valid()
      ensures State() == Roster([], map[], None)
      ensures itemOrder == [] && collectibles == map[] && lastUpdate == now
      ensures fresh(wire) && wire.sent == []
    {
      order, players, hostId := [], map[], None;
      itemOrder, collectibles := [], map[];
      lastUpdate := now;
      wire := new Wire();
    }

    /** send: a message reaches a socket only while it is OPEN. */
    method Send(ws: Socket, msg: Message)
      modifies wire
      ensures wire.sent == old(wire.sent) + (if ws.open then [Delivery(ws.conn, msg)] else [])
    {
      if ws.open {
        wire.sent := wire.sent + [Delivery(ws.conn, msg)];
      }
    }

    method Broadcast(msg: Message, exclude: Option<PlayerId>)
      requires WellFormed(State())
      modifies wire
      ensures wire.sent == old(wire.sent) + Fanout(order, players, msg, exclude)
    {
      var i := 0;
      while i < |order|
        invariant 0 <= i <= |order|
        invariant wire.sent == old(wire.sent) + Fanout(order[..i], players, msg, exclude)
      {
        var id := order[i];
        var player := players[id];
        FanoutStep(order, players, msg, exclude, i);
        AppendAssoc(old(wire.sent), Fanout(order[..i], players, msg, exclude), Reach(id, player.ws, msg, exclude));
        if Some(id) != exclude {
          Send(player.ws, msg);
        }
        i := i + 1;
      }
      assert order[..|order|] == order;
    }

    /** sendGameState: the player, if present, gets a snapshot of all players in join order and all collectibles. */
    method SendGameState(id: PlayerId)
      requires Valid()
      modifies wire
      ensures id !in players ==> wire.sent == old(wire.sent)
      ensures id in players ==>
        wire.sent == old(wire.sent) + (if players[id].ws.open
                                 then [Delivery(players[id].ws.conn, GameState(Views(order, players), Items()))]
                                 else [])
    {
      if id !in players {
        return;
      }
      var player := players[id];
      Send(player.ws, GameState(Views(order, players), Items()));
    }

    /** The record-keeping half of addPlayer; returns whether the joiner became host. */
    method Register(id: PlayerId, ws: Socket, now: int) returns (isHost: bool)
      requires Valid()
      modifies this`order, this`players, this`hostId
      ensures Valid()
      ensures State() == Join(old(State()), id, ws, now)
      ensures isHost == (|old(players)| == 0)
    {
      ghost var before := State();
      JoinKeepsHostConsistent(before, id, ws, now);
      isHost := |players| == 0;
      var host := if isHost then Some(id) else hostId;
      var joined := if id in players then order else order + [id];
      assert Roster(joined, players[id := Player(id, ws, SPAWN, isHost, now)], host) == Join(before, id, ws, now);
      order, players, hostId := joined, players[id := Player(id, ws, SPAWN, isHost, now)], host;
    }

    method AddPlayer(id: PlayerId, ws: Socket, now: int)
      requires Valid()
      modifies this`order, this`players, this`hostId, wire
      ensures Valid()
      ensures State() == Join(old(State()), id, ws, now)
      ensures wire.sent == old(wire.sent) + JoinSends(old(State()), id, ws, now, Items())
    {
      ghost var before := State();
      var isHost := Register(id, ws, now);
      ghost var start := wire.sent;
      Broadcast(PlayerJoined(id, isHost), None);
      ghost var announced := wire.sent;
      SendGameState(id);
      assert wire.sent == start + JoinSends(before, id, ws, now, Items()) by {
        var snapshot := if ws.open then [Delivery(ws.conn, GameState(Views(order, players), Items()))] else [];
        assert wire.sent == announced + snapshot;
        AppendAssoc(start, Fanout(order, players, PlayerJoined(id, isHost), None), snapshot);
      }
    }

    /** The record-keeping half of removePlayer. */
    method Unregister(id: PlayerId)
      requires WellFormed(State()) && HostConsistent(State())
      modifies this`order, this`players, this`hostId
      ensures WellFormed(State()) && HostConsistent(State())
      ensures State() == Leave(old(State()), id)
    {
      if id !in players {
        return;
      }
      LeaveKeepsHostConsistent(State(), id);
      order, players, hostId := Departure(id);
    }

    /** The roster after a known player leaves: the record deleted, and the first remaining joiner made host if the host left. */
    method Departure(id: PlayerId) returns (remaining: seq<PlayerId>, rest: map<PlayerId, Player>, host: Option<PlayerId>)
      requires WellFormed(State()) && id in players
      ensures Roster(remaining, rest, host) == Leave(State(), id)
    {
      remaining := Without(order, id);
      rest := players - {id};
      host := hostId;
      if hostId == Some(id) && |rest| > 0 {
        RemainingNonEmpty(State(), id);
        var h := remaining[0];
        rest := rest[h := rest[h].(isHost := true)];
        host := Some(h);
      }
    }

    method RemovePlayer(id: PlayerId)
      requires Valid()
      modifies this`order, this`players, this`hostId, wire
      ensures Valid()
      ensures State() == Leave(old(State()), id)
      ensures wire.sent == old(wire.sent) + LeaveSends(old(State()), id)
    {
      if id !in players {
        return;
      }
      ghost var before := State();
      Unregister(id);
      assert Valid();
      assert LeaveSends(before, id) == Fanout(order, players, PlayerLeft(id), None);
      Broadcast(PlayerLeft(id), None);
    }

    method UpdatePlayerPosition(id: PlayerId, pos: Position, now: int)
      requires Valid()
      modifies this`order, this`players, this`hostId, wire
      ensures Valid()
      ensures State() == Touch(old(State()), id, pos, now)
      ensures id !in old(players) ==> wire.sent == old(wire.sent)
      ensures id in old(players) ==> wire.sent == old(wire.sent) + Fanout(order, players, PlayerUpdate(id, pos), Some(id))
    {
      TouchOverwritesOnlyMirroredFields(State(), id, pos, now);
      if id !in players {
        return;
      }
      var player := players[id];
      players := players[id := player.(pos := pos, lastSeen := now)];
      Broadcast(PlayerUpdate(id, pos), Some(id));
    }

    /** collectItem: records the collection unconditionally (the collector need not be a player) and tells everyone. */
    method CollectItem(playerId: PlayerId, collectibleId: string, now: int)
      requires Valid()
      modifies this`itemOrder, this`collectibles, wire
      ensures Valid()
      ensures collectibles == old(collectibles)[collectibleId := Entry(collectibleId, true, playerId, now)]
      ensures itemOrder == if collectibleId in old(collectibles) then old(itemOrder) else old(itemOrder) + [collectibleId]
      ensures wire.sent == old(wire.sent) + Fanout(order, players, ItemCollected(playerId, collectibleId), None)
    {
      if collectibleId !in collectibles {
        itemOrder := itemOrder + [collectibleId];
      }
      collectibles := collectibles[collectibleId := Entry(collectibleId, true, playerId, now)];
      Broadcast(ItemCollected(playerId, collectibleId), None);
    }

    /** One turn of cleanupInactivePlayers' loop: `id` is removed, with its broadcast, when it is still here and idle. */
    method Visit(id: PlayerId, now: int)
      requires Valid()
      modifies this`order, this`players, this`hostId, wire
      ensures Valid()
      ensures id in old(players) && Idle(old(players)[id], now) ==>
        State() == Leave(old(State()), id) && wire.sent == old(wire.sent) + LeaveSends(old(State()), id)
      ensures !(id in old(players) && Idle(old(players)[id], now)) ==>
        State() == old(State()) && wire.sent == old(wire.sent)
    {
      if id in players && now - players[id].lastSeen > INACTIVITY_TIMEOUT {
        RemovePlayer(id);
      }
    }

    method CleanupInactivePlayers(now: int)
      requires Valid()
      modifies this`order, this`players, this`hostId, wire
      ensures Valid()
      ensures State() == Sweep(old(State()), old(order), now).roster
      ensures wire.sent == old(wire.sent) + Sweep(old(State()), old(order), now).sent
      ensures forall id :: id in players <==> id in old(players) && !Idle(old(players)[id], now)
    {
      ghost var start := State();
      ghost var done := Outcome(start, []);
      var snapshot := order;
      var i := 0;
      while i < |snapshot|
        invariant 0 <= i <= |snapshot|
        invariant Valid()
        invariant done == Sweep(start, snapshot[..i], now)
        invariant State() == done.roster
        invariant wire.sent == old(wire.sent) + done.sent
      {
        var id := snapshot[i];
        SweepStep(start, snapshot, i, now);
        ghost var next := Sweep(start, snapshot[..i + 1], now);
        ghost var before := State();
        Visit(id, now);
        if id in before.players && Idle(before.players[id], now) {
          AppendAssoc(old(wire.sent), done.sent, LeaveSends(before, id));
        }
        done := next;
        i := i + 1;
      }
      assert snapshot[..|snapshot|] == snapshot;
      SweepEvictsExactlyIdle(start, snapshot, now);
      forall id | id in start.players ensures id in snapshot { }
    }
  }
}

=== FILE: strings.dfy ===
/**
 * The few JavaScript string operations the connection manager relies on:
 * `indexOf`/`includes`, `replace` with a string pattern (first occurrence
 * only) and `split(c)[0]`.
 */
module Strings {
  import opened Wrappers

  /** `t` occurs in `s` starting at index `i`. */
  ghost predicate OccursAt(s: string, t: string, i: nat)
  {
    i + |t| <= |s| && s[i..i + |t|] == t
  }

  lemma OccursShift(s: string, t: string, j: nat)
    requires |s| > 0
    ensures OccursAt(s[1..], t, j) <==> OccursAt(s, t, j + 1)
  {
    if j + |t| <= |s[1..]| {
      assert s[1..][j..j + |t|] == s[j + 1..j + 1 + |t|];
    }
  }

  /** `s.indexOf(t)`: the first index at which `t` occurs, if any. */
  function Find(s: string, t: string): (r: Option<nat>)
    ensures r.Some? ==> OccursAt(s, t, r.value)
    ensures r.Some? ==> forall j: nat :: j < r.value ==> !OccursAt(s, t, j)
    ensures r.None? ==> forall j: nat :: !OccursAt(s, t, j)
    decreases |s|
  {
    if |s| < |t| then None
    else if s[..|t|] == t then Some(0)
    else
      var rest := Find(s[1..], t);
      assert forall j: nat :: OccursAt(s[1..], t, j) <==> OccursAt(s, t, j + 1) by {
        forall j: nat ensures OccursAt(s[1..], t, j) <==> OccursAt(s, t, j + 1) {
          OccursShift(s, t, j);
        }
      }
      assert !OccursAt(s, t, 0) by { assert s[0..|t|] == s[..|t|]; }
      assert forall j: nat :: j > 0 ==> (OccursAt(s, t, j) <==> OccursAt(s[1..], t, j - 1));
      match rest
      case None => None
      case Some(i) => Some(i + 1)
  }

  /** `s.includes(t)`. */
  function Contains(s: string, t: string): (b: bool)
    ensures b <==> exists j: nat :: OccursAt(s, t, j)
  {
    Find(s, t).Some?
  }

  /** `s.replace(pattern, replacement)` with a string pattern: only the first occurrence is replaced. */
  function ReplaceFirst(s: string, pattern: string, replacement: string): (r: string)
    ensures Find(s, pattern).None? ==> r == s
    ensures Find(s, pattern).Some? ==>
      var i := Find(s, pattern).value;
      r == s[..i] + replacement + s[i + |pattern|..]
  {
    match Find(s, pattern)
    case None => s
    case Some(i) => s[..i] + replacement + s[i + |pattern|..]
  }

  /** `s.split(c)[0]`: the text before the first `c`, or all of `s` when there is none. */
  function BeforeFirst(s: string, c: char): (r: string)
    ensures c !in r
    ensures r <= s
    ensures r == s || (|r| < |s| && s[|r|] == c)
  {
    match Find(s, [c])
    case None =>
      assert forall k | 0 <= k < |s| :: s[k] != c by {
        forall k | 0 <= k < |s| ensures s[k] != c {
          assert !OccursAt(s, [c], k);
          assert s[k..k + 1] == [s[k]];
        }
      }
      s
    case Some(i) =>
      assert forall k | 0 <= k < i :: s[k] != c by {
        forall k | 0 <= k < i ensures s[k] != c {
          assert !OccursAt(s, [c], k);
          assert s[k..k + 1] == [s[k]];
        }
      }
      assert s[i..i + 1] == [c];
      s[..i]
  }

  /** An occurrence inside `b` is an occurrence in `a + b`, shifted by `|a|`. */
  lemma OccursInSuffix(a: string, b: string, t: string, j: nat)
    ensures OccursAt(a + b, t, |a| + j) <==> OccursAt(b, t, j)
  {
    if j + |t| <= |b| {
      assert (a + b)[|a| + j..|a| + j + |t|] == b[j..j + |t|];
    }
  }

  /** An occurrence inside `a` is an occurrence in `a + b`. */
  lemma OccursInPrefix(a: string, b: string, t: string, j: nat)
    requires OccursAt(a, t, j)
    ensures OccursAt(a + b, t, j)
  {
    assert (a + b)[j..j + |t|] == a[j..j + |t|];
  }
}

=== FILE: world.dfy ===
/**
 * The platformer's module-level state (src/main.ts): the player object, the
 * five level arrays, the score and the level counter, with the operations
 * that change them in place: generateLevel, resetPlayer, generateNewLevel
 * and the per-frame update. Every method is specified by the pure functions
 * of Physics and Level.
 */
module Game {
  import opened Geometry
  import opened Physics
  import opened Level

  /** What one frame keeps true of the level: collected items stay collected, the score grows by the number newly collected, moving platforms stay on their tracks. */
  lemma AdvanceKeepsLevel(b: Body, k: Keys, platforms: seq<Rect>, boxes: seq<Rect>, moving: seq<MovingPlatform>,
                          collectibles: seq<Collectible>, spikes: seq<Rect>)
    requires forall i :: 0 <= i < |moving| ==> Swept(moving[i])
    ensures var f := Advance(b, k, platforms, boxes, moving, collectibles, spikes);
      && (forall i :: 0 <= i < |f.moving| ==> Swept(f.moving[i]) && Abs(f.moving[i].dx) == Abs(moving[i].dx))
      && (forall i :: 0 <= i < |collectibles| ==> collectibles[i].collected ==> f.collectibles[i].collected)
      && f.gained == NewlyCollected(collectibles, f.collectibles)
  {
    var f := Advance(b, k, platforms, boxes, moving, collectibles, spikes);
    forall i | 0 <= i < |moving|
      ensures Swept(f.moving[i]) && Abs(f.moving[i].dx) == Abs(moving[i].dx)
    {
      OscillateKeepsSwept(moving[i]);
    }
    var b4 := RideAll(PushOutAll(LandAll(Steer(b, k).(onGround := false), platforms), boxes), f.moving);
    CollectAllCounts(b4, collectibles);
  }

  class World {
    var player: Body
    var platforms: seq<Rect>
    var boxes: seq<Rect>
    var collectibles: seq<Collectible>
    var spikes: seq<Rect>
    var movingPlatforms: seq<MovingPlatform>
    var score: int
    var level: int
    /** The run's Math.random() results, and how many of them have been drawn so far. */
    const rng: Oracle
    var draws: nat

    /** The five level arrays. */
    function Layout(): (p: Parts)
      reads this
    {
      Parts(platforms, collectibles, spikes, movingPlatforms, boxes)
    }

    /** The player keeps its 40 by 50 size, moving platforms stay on their tracks, the counters stay in range. */
    predicate Valid()
      reads this
    {
      && player.width == 40.0 && player.height == 50.0
      && OnTracks(movingPlatforms)
      && score >= 0 && level >= 1
    }

    /** The script's start: the player at its initial place, score 0, level 1, and a first level generated. */
    constructor (rng: Oracle)
      ensures Valid()
      ensures player == AtSpawn && score == 0 && level == 1
      ensures Layout() == Generate(0.0, rng, 0)
      ensures draws == DRAWS_PER_PASS * |platforms|
    {
      this.rng := rng;
      player := AtSpawn;
      platforms := [];
      boxes := [];
      collectibles := [];
      spikes := [];
      movingPlatforms := [];
      score := 0;
      level := 1;
      draws := 0;
      new;
      GenerateLevel();
      NothingThen(Generate(0.0, rng, 0));
    }

    /** generateLevel: the loop from x = 0, pushing onto the five arrays. */
    method GenerateLevel()
      requires Valid()
      modifies this`platforms, this`collectibles, this`spikes, this`movingPlatforms, this`boxes, this`draws
      ensures Valid()
      ensures Layout() == Then(old(Layout()), Generate(0.0, rng, old(draws)))
      ensures draws == old(draws) + DRAWS_PER_PASS * |Generate(0.0, rng, old(draws)).platforms|
    {
      ghost var start := Layout();
      ghost var acc := NoParts;
      ghost var whole := Generate(0.0, rng, draws);
      var x := 0.0;
      while x < LEVEL_WIDTH
        invariant Valid()
        invariant Layout() == Then(start, acc)
        invariant Then(acc, Generate(x, rng, draws)) == whole
        invariant draws == old(draws) + DRAWS_PER_PASS * |acc.platforms|
        decreases |Generate(x, rng, draws).platforms|
      {
        x, acc := NextPass(x, start, acc, whole, old(draws));
      }
      Ends(x, rng, draws);
      ThenNothing(acc);
    }

    /** One turn of generateLevel's loop: a pass, with the ghost bookkeeping that keeps the loop invariant. */
    method NextPass(x: real, ghost start: Parts, ghost acc: Parts, ghost whole: Parts, ghost d0: nat) returns (next: real, ghost acc': Parts)
      requires Valid() && x < LEVEL_WIDTH && Layout() == Then(start, acc)
      requires Then(acc, Generate(x, rng, draws)) == whole && draws == d0 + DRAWS_PER_PASS * |acc.platforms|
      modifies this`platforms, this`collectibles, this`spikes, this`movingPlatforms, this`boxes, this`draws
      ensures Valid() && Layout() == Then(start, acc')
      ensures Then(acc', Generate(next, rng, draws)) == whole && draws == d0 + DRAWS_PER_PASS * |acc'.platforms|
      ensures |Generate(next, rng, draws).platforms| < |Generate(x, rng, old(draws)).platforms|
    {
      ghost var d := draws;
      ghost var before := Layout();
      next := GeneratePass(x);
      PassMovesOn(start, acc, before, Layout(), x, next, rng, d, whole);
      acc' := Then(acc, Step(x, rng, d).parts);
    }

    /**
     * The body of generateLevel's loop at `x`: the platform, then a coin, a
     * spike, a moving platform and a crate each on its own draw, the gap
     * drawn before the crate; the six draws are the next six of the run.
     */
    method GeneratePass(x: real) returns (next: real)
      modifies this`platforms, this`collectibles, this`spikes, this`movingPlatforms, this`boxes, this`draws
      ensures Layout() == Then(old(Layout()), Step(x, rng, old(draws)).parts) && next == Step(x, rng, old(draws)).next
      ensures draws == old(draws) + DRAWS_PER_PASS
    {
      var d := draws;
      var r0, r1, r2, r3, r4, r5 := rng(d), rng(d + 1), rng(d + 2), rng(d + 3), rng(d + 4), rng(d + 5);
      ghost var before := Layout();
      var platformWidth := if r0 < 0.2 then 80.0 else 160.0;
      platforms := platforms + [Rect(x, GROUND_Y, platformWidth, 50.0)];
      if r1 < 0.5 {
        collectibles := collectibles + [Collectible(x + platformWidth / 2.0 - 10.0, GROUND_Y - 30.0, 20.0, 20.0, false)];
      }
      assert collectibles == before.collectibles + CoinPush(x, PlatformWidth(r0), r1);
      if r2 < 0.3 && x > 0.0 {
        spikes := spikes + [Rect(x - 40.0, GROUND_Y + 35.0, 40.0, 15.0)];
      }
      assert spikes == before.spikes + SpikePush(x, r2);
      if r3 < 0.2 && x > 0.0 {
        movingPlatforms := movingPlatforms + [MovingPlatform(x - 60.0, GROUND_Y - 100.0, 80.0, 20.0, 2.0, 120.0, x - 60.0)];
      }
      assert movingPlatforms == before.moving + MoverPush(x, r3);
      next := x + platformWidth;
      var gap := 60.0 + (r4 as real) * 80.0;
      next := next + gap;
      if r5 < 0.5 && next < LEVEL_WIDTH - 50.0 {
        boxes := boxes + [Rect(next + 10.0, GROUND_Y - 40.0, 40.0, 40.0)];
      }
      assert boxes == before.boxes + CratePush(next, r5);
      draws := d + DRAWS_PER_PASS;
      PassPushes(before, Layout(), x, next, rng, d);
    }

    /** resetPlayer: back to the start position, at rest; onGround is left as it was. */
    method ResetPlayer()
      modifies this`player
      ensures player == Respawn(old(player))
    {
      player := player.(x := 100.0, y := GROUND_Y - 50.0, vx := 0.0, vy := 0.0);
    }

    /** The first half of generateNewLevel: the five arrays emptied, then generateLevel. */
    method Regenerate()
      requires Valid()
      modifies this`platforms, this`collectibles, this`spikes, this`movingPlatforms, this`boxes, this`draws
      ensures Valid()
      ensures Layout() == Generate(0.0, rng, old(draws))
      ensures draws == old(draws) + DRAWS_PER_PASS * |platforms|
    {
      ghost var level := Generate(0.0, rng, draws);
      platforms := [];
      boxes := [];
      collectibles := [];
      spikes := [];
      movingPlatforms := [];
      assert Layout() == NoParts;
      GenerateLevel();
      NothingThen(level);
      assert Layout() == level;
      assert platforms == level.platforms;
    }

    /** generateNewLevel: empty the five arrays, generate afresh, reset the player, score 0, next level. */
    method GenerateNewLevel()
      requires Valid()
      modifies this
      ensures Valid()
      ensures Layout() == Generate(0.0, rng, old(draws))
      ensures draws == old(draws) + DRAWS_PER_PASS * |platforms|
      ensures player == Respawn(old(player)) && score == 0 && level == old(level) + 1
    {
      Regenerate();
      ResetPlayer();
      score := 0;
      level := level + 1;
    }

    // ---------------------------------------------------------------- the phases of update

    /** Steps 1 to 4 of update: keys to vx, a jump from the ground, gravity, motion. */
    method ApplyInput(k: Keys)
      modifies this`player
      ensures player == Steer(old(player), k)
    {
      player := player.(vx := 0.0);
      if k.arrowLeft || k.keyA {
        player := player.(vx := -MOVE_SPEED);
      }
      if k.arrowRight || k.keyD {
        player := player.(vx := MOVE_SPEED);
      }
      if (k.arrowUp || k.space || k.keyW) && player.onGround {
        player := player.(vy := -JUMP_POWER, onGround := false);
      }
      player := player.(vy := player.vy + GRAVITY);
      player := player.(x := player.x + player.vx);
      player := player.(y := player.y + player.vy);
    }

    /** Step 5: clear onGround, then try every platform in order. */
    method LandOnPlatforms()
      modifies this`player
      ensures player == LandAll(old(player).(onGround := false), platforms)
    {
      player := player.(onGround := false);
      ghost var start := player;
      for i := 0 to |platforms|
        invariant player == LandAll(start, platforms[..i])
      {
        var plat := platforms[i];
        if && player.y + player.height > plat.y
           && player.y + player.height < plat.y + plat.height
           && player.x + player.width > plat.x
           && player.x < plat.x + plat.width
           && player.vy >= 0.0
        {
          player := player.(y := plat.y - player.height, vy := 0.0, onGround := true);
        }
        assert platforms[..i + 1][..i] == platforms[..i];
      }
      assert platforms[..|platforms|] == platforms;
    }

    /** Step 6: push the player out of every box it overlaps, in order. */
    method PushOutOfBoxes()
      modifies this`player
      ensures player == PushOutAll(old(player), boxes)
    {
      ghost var start := player;
      for i := 0 to |boxes|
        invariant player == PushOutAll(start, boxes[..i])
      {
        var box := boxes[i];
        if RectsCollide(BoxOf(player), box) {
          if player.y + player.height - player.vy <= box.y {
            player := player.(y := box.y - player.height, vy := 0.0, onGround := true);
          } else if player.x + player.width - player.vx <= box.x {
            player := player.(x := box.x - player.width);
          } else if player.x - player.vx >= box.x + box.width {
            player := player.(x := box.x + box.width);
          } else if player.y - player.vy >= box.y + box.height {
            player := player.(y := box.y + box.height, vy := 0.0);
          }
        }
        assert boxes[..i + 1][..i] == boxes[..i];
      }
      assert boxes[..|boxes|] == boxes;
    }

    /** Step 7, first loop: every moving platform advances and turns round outside its track. */
    method MoveMovingPlatforms()
      modifies this`movingPlatforms
      ensures movingPlatforms == OscillateAll(old(movingPlatforms))
    {
      for i := 0 to |movingPlatforms|
        invariant |movingPlatforms| == |old(movingPlatforms)|
        invariant forall j :: 0 <= j < i ==> movingPlatforms[j] == Oscillate(old(movingPlatforms)[j])
        invariant forall j :: i <= j < |movingPlatforms| ==> movingPlatforms[j] == old(movingPlatforms)[j]
      {
        var plat := movingPlatforms[i];
        plat := plat.(x := plat.x + plat.dx);
        if plat.x > plat.startX + plat.range || plat.x < plat.startX {
          plat := plat.(dx := plat.dx * -1.0);
        }
        movingPlatforms := movingPlatforms[i := plat];
      }
    }

    /** Step 7, second loop: landing on a moving platform also carries the player by its dx. */
    method RideMovingPlatforms()
      modifies this`player
      ensures player == RideAll(old(player), movingPlatforms)
    {
      ghost var start := player;
      for i := 0 to |movingPlatforms|
        invariant player == RideAll(start, movingPlatforms[..i])
      {
        var plat := movingPlatforms[i];
        if && player.y + player.height > plat.y
           && player.y + player.height < plat.y + plat.height
           && player.x + player.width > plat.x
           && player.x < plat.x + plat.width
           && player.vy >= 0.0
        {
          player := player.(y := plat.y - player.height, vy := 0.0, onGround := true);
          player := player.(x := player.x + plat.dx);
        }
        assert movingPlatforms[..i + 1][..i] == movingPlatforms[..i];
      }
      assert movingPlatforms[..|movingPlatforms|] == movingPlatforms;
    }

    /** Step 8: every uncollected item the player overlaps is collected, one point each. */
    method PickUpCollectibles()
      modifies this`collectibles, this`score
      ensures collectibles == CollectAll(player, old(collectibles))
      ensures score == old(score) + Flips(player, old(collectibles))
    {
      for i := 0 to |collectibles|
        invariant |collectibles| == |old(collectibles)|
        invariant forall j :: 0 <= j < i ==> collectibles[j] == Pick(player, old(collectibles)[j])
        invariant forall j :: i <= j < |collectibles| ==> collectibles[j] == old(collectibles)[j]
        invariant score == old(score) + Flips(player, old(collectibles)[..i])
      {
        var c := collectibles[i];
        if !c.collected && RectsCollide(BoxOf(player), ItemBox(c)) {
          collectibles := collectibles[i := c.(collected := true)];
          score := score + 1;
        }
        assert old(collectibles)[..i + 1][..i] == old(collectibles)[..i];
      }
      assert old(collectibles)[..|collectibles|] == old(collectibles);
    }

    /** Step 9: the first spike the player touches sends it back to the start; the loop stops there. */
    method CheckSpikes()
      modifies this`player
      ensures player == if HitsSpike(old(player), spikes) then Respawn(old(player)) else old(player)
    {
      var i := 0;
      while i < |spikes|
        invariant 0 <= i <= |spikes|
        invariant player == old(player)
        invariant forall j :: 0 <= j < i ==> !RectsCollide(BoxOf(player), spikes[j])
      {
        if RectsCollide(BoxOf(player), spikes[i]) {
          player := player.(x := 100.0, y := GROUND_Y - 50.0, vx := 0.0, vy := 0.0);
          return;
        }
        i := i + 1;
      }
    }

    /** Steps 1 to 6 of update: the player's own motion, landing on platforms, pushing out of boxes. */
    method MovePlayer(k: Keys)
      modifies this`player
      ensures player == PushOutAll(LandAll(Steer(old(player), k).(onGround := false), platforms), boxes)
    {
      ApplyInput(k);
      LandOnPlatforms();
      PushOutOfBoxes();
    }

    /** Step 7: the moving platforms advance, then carry the player. */
    method MoveWorld()
      modifies this`player, this`movingPlatforms
      ensures movingPlatforms == OscillateAll(old(movingPlatforms))
      ensures player == RideAll(old(player), movingPlatforms)
    {
      MoveMovingPlatforms();
      RideMovingPlatforms();
    }

    /** Steps 8 and 9: collectibles, then spikes. */
    method Settle()
      modifies this`player, this`collectibles, this`score
      ensures collectibles == CollectAll(old(player), old(collectibles))
      ensures score == old(score) + Flips(old(player), old(collectibles))
      ensures player == if HitsSpike(old(player), spikes) then Respawn(old(player)) else old(player)
    {
      PickUpCollectibles();
      CheckSpikes();
    }

    /** Steps 1 to 9 of update, phase by phase; `landed` is the player after step 6, `carried` after step 7. */
    method Phases(k: Keys) returns (ghost landed: Body, ghost carried: Body)
      modifies this`player, this`movingPlatforms, this`collectibles, this`score
      ensures landed == PushOutAll(LandAll(Steer(old(player), k).(onGround := false), platforms), boxes)
      ensures movingPlatforms == OscillateAll(old(movingPlatforms)) && carried == RideAll(landed, movingPlatforms)
      ensures player == (if HitsSpike(carried, spikes) then Respawn(carried) else carried)
      ensures collectibles == CollectAll(carried, old(collectibles)) && score == old(score) + Flips(carried, old(collectibles))
    {
      MovePlayer(k);
      landed := player;
      MoveWorld();
      carried := player;
      Settle();
    }

    /** Steps 1 to 9 of update are one frame of Physics.Advance; moving platforms stay on their tracks. */
    method RunPhases(k: Keys)
      requires OnTracks(movingPlatforms)
      modifies this`player, this`movingPlatforms, this`collectibles, this`score
      ensures OnTracks(movingPlatforms)
      ensures player.width == old(player).width && player.height == old(player).height
      ensures score >= old(score)
      ensures Frame(player, movingPlatforms, collectibles, score - old(score)) == Advance(old(player), k, platforms, boxes, old(movingPlatforms), old(collectibles), spikes)
    {
      OscillateAllOnTracks(movingPlatforms);
      ghost var b, moving, items := player, movingPlatforms, collectibles;
      ghost var landed, carried := Phases(k);
      AdvanceIs(b, k, platforms, boxes, moving, items, spikes, landed, movingPlatforms, carried, player, collectibles, score - old(score));
    }

    /**
     * update, without the camera: the frame of Physics.Advance; then a new
     * level when the player's right edge reaches levelEndX; then the clamp
     * into [0, LEVEL_WIDTH].
     */
    method Update(k: Keys)
      requires Valid()
      modifies this
      ensures Valid()
      ensures var f := Advance(old(player), k, old(platforms), old(boxes), old(movingPlatforms), old(collectibles), old(spikes));
        if f.player.x + f.player.width >= LEVEL_END_X then
          && Layout() == Generate(0.0, rng, old(draws))
          && draws == old(draws) + DRAWS_PER_PASS * |platforms|
          && player == Respawn(f.player) && score == 0 && level == old(level) + 1
        else
          && platforms == old(platforms) && boxes == old(boxes) && spikes == old(spikes) && draws == old(draws)
          && movingPlatforms == f.moving && collectibles == f.collectibles
          && player == Clamp(f.player) && score == old(score) + f.gained && level == old(level)
      ensures 0.0 <= player.x && player.x + player.width <= LEVEL_WIDTH
    {
      RunPhases(k);
      EndFrame();
    }

    /** Steps 10 and 11 of update: a player past the level end starts the next level, then the player is kept inside the level. */
    method EndFrame()
      requires Valid()
      modifies this
      ensures Valid()
      ensures old(player).x + old(player).width >= LEVEL_END_X ==>
        && Layout() == Generate(0.0, rng, old(draws))
        && draws == old(draws) + DRAWS_PER_PASS * |platforms|
        && player == Respawn(old(player)) && score == 0 && level == old(level) + 1
      ensures old(player).x + old(player).width < LEVEL_END_X ==>
        && Layout() == old(Layout()) && draws == old(draws)
        && player == Clamp(old(player)) && score == old(score) && level == old(level)
      ensures 0.0 <= player.x && player.x + player.width <= LEVEL_WIDTH
    {
      if player.x + player.width >= LEVEL_END_X {
        GenerateNewLevel();
      }
      ClampKeepsInLevel(player);
      var x := player.x;
      if x < 0.0 {
        x := 0.0;
      }
      if x + player.width > LEVEL_WIDTH {
        x := LEVEL_WIDTH - player.width;
      }
      player := player.(x := x);
    }
  }
}

=== FILE: wrappers.dfy ===
/** The optional value used wherever the source has `null` or a missing field. */
module Wrappers {

  datatype Option<+T> = None | Some(value: T)
}
